=== FILE: README.md ===
# release-cli in Dafny

A model of the release tool of the Pegasus project (`pegasus-kv/release-cli`),
a Go command-line program with three commands:

- `show`: for a version `X.Y.Z`, find where release branch `vX.Y` diverged from
  master. Then list, as `owner/repo#N` rows, the master commits since that point
  that have no counterpart on the release branch.
- `submit`: for the newest version, collect the pull-request numbers from the
  titles of the commits picked since the previous stable release. Make sure a
  GitHub label for the version exists, then label every pull request that lacks
  a label of the release branch.
- `add`: sort the requested pull-request numbers, read each pull request from
  GitHub, and cherry-pick the merge commits the release branch does not already
  contain.

The model also covers the helpers these commands share (`utils.go`):

- commit titles;
- pull-request numbers taken from titles;
- the owner and name of a repository from its remote URL;
- log searches;
- the result of a shell command.

Go's `strings` and `strconv` functions are modelled as well, as far as the tool
uses them (`go_strings.dfy`, `go_strconv.dfy`).

The git repository, GitHub and the shell are not executed. They are parameters:

- a map from commit hashes to commits;
- logs given as sequences of commits;
- tags and the remote URL as values;
- `IsAncestor` as a relation;
- GitHub answers as functions from commit hashes or pull-request numbers to optional results (the answers before a command makes changes; a pull request `submit` has labelled is read back with the label);
- shell runs as records of success and output.

Every command ends in one of three ways: its result, the fatal error it
reports, or a Go runtime panic. Each command has a single panic outcome
(`ShowPanicked`, `SubmitPanicked`, `AddPanicked`) that stands for every kind
of panic on its path:

- an index out of range;
- a nil dereference;
- a slice out of range.

Only the title parse (`Utils.PrIdResult`) keeps its slice panic apart, as
`SliceOutOfRange`, because `submit` turns it into its own panic.

Go strings are byte strings; the model's strings are sequences of Unicode
characters. Slices taken at an ASCII character the code searched for are the
same either way. Where the code counts bytes (the `[1:]` of the title parse,
the ten-byte hash prefix of `add`), the model counts UTF-8 bytes with
`GoStrings.Utf8Length` and `GoStrings.Utf8Width`.

Modules follow the source files:

- `Utils` (`utils.go`), `Show` (`show.go`), `Submit` (`submit.go`), `Add` (`add.go`);
- `Repo` (commits and first-parent walks);
- `GitHub` (pull requests);
- `GoStrings` and `GoStrconv`;
- `Seqs` (first index and filter);
- `Outcomes` (`Option`, `Result`).

The model follows what the code does, also where its names or comments
suggest otherwise. The commands are modelled as written, including the three
defects listed under Findings:

- `show` matches a release-branch commit with a master commit by equal full
  message (`hasEqualCommitInRepo`). `findEqualCommitInRepo`, whose comment at
  utils.go:111 asks for the same title, matches by substring of the title
  (see Findings).
- Reading the number out of a title (`getPrIDInt`) takes the text between the
  last `(` and the last `)`, drops its first byte, and parses the rest; any text
  that does not parse is one and the same error. A `)` at or before the last `(`
  (or right after it) is a slice panic. Titles without a parenthesis are an
  error, and `submit` skips them.
- Whether `add` already has a commit on the branch is decided by
  `git branch --contains <merge-sha> | grep -o <branch>`. The fatal exit in
  `hasCommitInBranch` (error with output) can never fire: on error
  `executeCommandAndGet` leaves its result empty (`Add.HasCommitInBranch`
  proves the outcome is never `Aborted`).

## Model

| member | source | states |
|---|---|---|
| GoStrings.TrimSpace | utils.go:85-86 | the result is trimmed, no longer than the input, and built from the input's characters; a string that is already trimmed is returned unchanged |
| GoStrings.IndexOf | utils.go:54 | -1 exactly when the character is absent, otherwise the position of its first occurrence |
| GoStrings.LastIndexOf | utils.go:66-67 | -1 exactly when the character is absent, otherwise the position of its last occurrence |
| GoStrings.TrimSuffix | utils.go:49 | with the suffix present, the result followed by the suffix is the input; without it, the input is returned |
| GoStrings.Split | show.go:56 | every part is free of the separator; there is at least one part, and exactly one exactly when the separator does not occur |
| GoStrings.JoinSplit | show.go:56-57 | joining the parts of a split with the separator gives back the original string |
| GoStrings.SplitJoin | show.go:56-57 | splitting a join of separator-free parts gives back the parts |
| GoStrings.Utf8Length | add.go:93 | Go's `len` of a string lies between its character count and four times that, and equals the character count exactly when every character is ASCII |
| GoStrings.Utf8LengthAppend | add.go:93 | the byte length of a concatenation is the sum of the byte lengths |
| GoStrings.HasPrefix | submit.go:122 | a string with the prefix is the prefix followed by the rest of the string |
| GoStrings.HasPrefixAgrees | submit.go:122 | a string has a prefix exactly when it is at least as long and agrees with it at every position of the prefix |
| GoStrings.Contains | utils.go:123 | a string contains only texts no longer than itself, and always contains the empty text |
| GoStrings.ContainsWitness | utils.go:123 | a string that contains the text has an occurrence of it at some position |
| GoStrings.OccurrenceContained | utils.go:123 | an occurrence of the text at any position makes the string contain it |
| GoStrings.ContainsOccurs | utils.go:123 | the text is contained exactly when it occurs in the string at some position |
| GoStrings.SplitSnoc | utils.go:50 | appending a separator and a separator-free segment adds exactly that segment as the last part |
| GoStrconv.Itoa | utils.go:62 | the `%d` text starts with `-` exactly for negative numbers and is otherwise all digits |
| GoStrconv.Atoi | utils.go:81 | a parsed value fits in a 64-bit `int`, comes from an optionally signed run of digits, and is negative only after a `-` |
| GoStrconv.AtoiItoa | utils.go:62 | parsing the `%d` text of any 64-bit integer gives that integer back |
| GoStrconv.DecimalValue | utils.go:81 | the digits of the decimal notation of `n` denote `n` |
| Repo.FirstParent | show.go:80 | `Parent(0)` fails exactly when the commit has no parent or its first parent's object is missing; otherwise it is the stored first parent |
| Repo.FirstParentAtNext | show.go:80-84 | walking one more first-parent step from the commit reached after `k` steps is walking `k+1` steps |
| Repo.FirstParentAtShallower | show.go:80-84 | a commit reachable after `j` first-parent steps means every shallower depth is reachable too |
| Utils.CommitTitle | utils.go:84-87 | a title is a single line without surrounding white space |
| Utils.TitleOfTitle | utils.go:84-87 | a trimmed single line is its own title |
| Utils.TitleIdempotent | utils.go:84-87 | taking the title of a title changes nothing |
| Utils.TitleOfMessage | utils.go:84-87 | a message made of a trimmed non-empty first line, a newline and any body has that line as its title |
| Utils.PrIdText | utils.go:65-71 | the text is the part of the message strictly between the last `(` and the last `)`, and has no `(` in it; it can be called only when those slices do not panic |
| Utils.PrIdInt | utils.go:73-82 | "no parentheses" exactly when a `(` or a `)` is missing; a slice panic exactly when the last `)` is not at least two past the last `(`; any number parsed fits in an `int` |
| Utils.PrIdIntParsesPrIdText | utils.go:73-82 | the number is what `strconv.Atoi` makes of the text `getPrID` extracts, minus its first byte: a non-ASCII first character leaves a partial character that never parses |
| Utils.PrIdIntNonAsciiMark | utils.go:81 | `x (é42)` gives no number, since dropping one byte of `é` leaves a continuation byte before the digits |
| Utils.PrIdTextOfGroup | utils.go:65-71 | for a message ending in a parenthesised group with no parentheses after it, the extracted text is the group's contents |
| Utils.PrIdIntOfSuffix | utils.go:73-82 | any title ending in ` (#N)` yields `N`, whatever parentheses come before |
| Utils.PrIdIntExample | utils.go:73-82 | `Fix (temp) thing (#42)` yields 42 |
| Utils.AfterFirstColon | utils.go:54-57 | without a `:` the owner is unchanged; otherwise it is the text after the first `:` |
| Utils.OwnerAndRepo | utils.go:47-59 | owner and repository are single path segments |
| Utils.SplitOwnerAndRepo | utils.go:50-52 | `owner/repo` splits into exactly those two segments |
| Utils.SplitEndsWithOwnerAndRepo | utils.go:50-52 | a path ending in `/owner/repo` has those two segments last |
| Utils.OwnerAndRepoOfPath | utils.go:47-59 | whenever the URL without `.git` ends in `owner/repo`, those are the owner (minus any `user@host:`) and repository returned |
| Utils.OwnerAndRepoOfHttpsUrl | utils.go:47-59 | an HTTPS remote `host/owner/repo.git` gives back `owner` and `repo` |
| Utils.OwnerAndRepoOfSshUrl | utils.go:47-59 | an SSH remote `user@host:owner/repo.git` gives back `owner` and `repo` |
| Utils.OwnerAndRepoHttpsExample | utils.go:47 | the example in the source comment: `https://github.com/xiaomi/pegasus.git` names `xiaomi` and `pegasus` |
| Utils.OwnerAndRepoSshExample | utils.go:54 | the SSH form of the same remote names the same owner and repository |
| Utils.PrName | utils.go:61-63 | a reference starts with `owner/repo#` |
| Utils.PrNameRoundTrip | utils.go:61-63 | the reference splits at its last `#` into `owner/repo` and text that parses back to the number |
| Utils.FirstContaining | utils.go:121-133 | nothing is found exactly when no title contains the text; otherwise the first title that does |
| Utils.FindCommitContaining | utils.go:115-134 | nothing found exactly when no commit title of the log contains the text; otherwise the first commit whose title does |
| Utils.FindEqualCommitAsWritten | utils.go:110-113 | nothing found exactly when no commit title of the log contains the commit's title; otherwise the first commit whose title contains it |
| Utils.FindEqualCommitFindsSameTitle | utils.go:110-113 | a commit with the same title is always found, at or before it |
| Utils.FindEqualCommitMatchesLongerTitle | utils.go:110-113 | searching for `Fix` in a log starting with `Fix CI` returns the `Fix CI` commit, whose title differs |
| Utils.FindSameTitleCommit | utils.go:110-113 | nothing found exactly when no commit has the same title; otherwise the first commit with the same title |
| Utils.FirstEqual | utils.go:111 | nothing found exactly when the title is absent; otherwise its first position |
| Utils.ExecuteAndGet | utils.go:31-40 | an error exactly when the command failed; on failure the result is empty and the error carries the output (the message text around it is not modelled); on success the result is the output; the run can be read back from the pair |
| Show.ReleaseNamesOf | show.go:52-67 | a missing version and one that does not split into three dotted parts are the two argument errors; the initial tag is the branch name followed by `.0`, and the branch starts with `v` |
| Show.ReleaseNamesOfTriple | show.go:56-67 | `X.Y.Z` is accepted and names branch `vX.Y` and tag `vX.Y.0` |
| Show.AcceptedArgumentIsTriple | show.go:56-66 | every accepted argument is `p0.p1.p2` and names branch `vp0.p1` |
| Show.FindEqualMessage | show.go:142-158 | nothing found means no master commit has the same full message; otherwise the first commit in committer-time order that does |
| Show.DivergeFrom | show.go:75-89 | a divergence is the commit at a depth of at most 10 first-parent steps, with a master counterpart of equal message; a missing parent is reported for a reachable commit that has none; giving up means 11 steps were reachable |
| Show.DivergeFromPassesUnmatched | show.go:77-89 | every commit the loop stepped past has no counterpart on master |
| Show.DivergeFromPassesAllUnmatched | show.go:77-89 | every commit between the starting depth and where the loop ended has no counterpart on master |
| Show.Diverge | show.go:75-89 | from the tagged commit: a divergence is a commit within 10 first-parent steps with the first master commit of the same message as its counterpart; a missing parent is reported for a reachable commit whose parent cannot be read; giving up means 11 commits were reachable; every commit passed over has no counterpart |
| Show.DivergenceIsNearest | show.go:75-89 | whenever some commit within 10 first-parent steps has a counterpart, the search diverges at the nearest such commit or nearer |
| Show.DivergenceAtTag | show.go:75 | a tagged commit that is itself on master is the divergence point, with depth 0 |
| Show.ReleasedMessages | show.go:96-104 | the messages are exactly those of the release-branch commits before the first one that is an ancestor of the divergence commit |
| Show.UnreleasedCommits | show.go:119-125 | every reported commit is on master, has no release-branch counterpart, and is not behind the master counterpart |
| Show.UnreleasedIsFilteredPrefix | show.go:119-125 | the report is, in master order, the commits without a counterpart before the first such commit that is behind the master counterpart |
| Show.RowReferenceAsWritten | show.go:134 | the reference column starts with `owner/repo#` |
| Show.RowReferenceNamesIdentifier | show.go:134 | when a pull request's identifier differs from its number, the written reference does not read back as its number |
| Show.RowReference | show.go:134 | the intended reference starts with `owner/repo#` |
| Show.RowReferenceNamesNumber | show.go:134 | the intended reference reads back as `owner/repo` and the pull request's number |
| Show.FirstUnlisted | show.go:126-131 | the first commit without exactly one associated pull request; every commit before it has one |
| Show.RowsOf | show.go:126-134 | rows for all commits exactly when every commit has one pull request, one row per commit in order, whose reference is built from the pull request's identifier as show.go:134 does; otherwise the error of the first commit without one |
| Show.ListUnreleased | show.go:119-136 | success means one row per reported commit, in order, each for a commit without counterpart and not behind it, with a single pull request; failure exactly when some reported commit had a failed lookup or not exactly one pull request, and its error is that of the first such commit |
| Show.Show | show.go:52-136 | the two argument errors occur exactly for a missing or non-triple version; a panic exactly for a lightweight initial tag, or after a divergence on an existing branch with a remote URL without `/`; a listing needs an annotated initial tag, reports the divergence pair of the search from it, the messages of the release branch down to the first ancestor of the divergence commit, and one row per commit the master scan reports, each holding the reference built from the pull request's identifier and the pull request's title |
| Submit.PastReleasedIndex | submit.go:59-67 | nothing found exactly when every version after the newest is a prerelease; otherwise the first stable version after the newest |
| Submit.PastReleasedIsUnique | submit.go:59-67 | the first stable version after the newest is the one chosen |
| Submit.CollectIds | submit.go:75-83 | fails (a panic) exactly when some title has a slice panic; otherwise the numbers kept all come from the parse results |
| Submit.CollectIdsIsFilterMap | submit.go:75-83 | without panics, the collection is the parsed numbers in order, with the titles that fail to parse skipped |
| Submit.CollectIdsAppend | submit.go:75-83 | collecting over two lists joined is collecting over each and joining the results, and a panic in either is a panic |
| Submit.CollectPrIds | submit.go:74-83 | fails (a panic) exactly when some title has a slice panic; every collected number fits in an `int` |
| Submit.LabelName | submit.go:101 | the label is the version with its first character removed |
| Submit.EnsureLabel | submit.go:104-111 | nothing to do when the label exists; it is created on a 404 when creation succeeds; a lookup without a response is a nil dereference; other failures are the lookup's or the creation's error |
| Submit.AlreadyLabeledAsWritten | submit.go:120-127 | only a pull request with labels passes, and with an empty branch name every pull request with labels does |
| Submit.AlreadyLabeledImpliesAsWritten | submit.go:120-127 | every label of the release branch passes the prefix test |
| Submit.LabelOfBranchLonger | submit.go:121-126 | with the intended test, a label that starts with branch `X.YZ` never names a version of branch `X.Y` |
| Submit.LabelOfOneBranch | submit.go:121-126 | with the intended test, a label names a version of at most one release branch `X.Y` of a major version |
| Submit.OtherBranchLabelCountsAsWritten | submit.go:120-127 | on branch `2.1`, label `2.10.0` passes the prefix test though it belongs to branch `2.10` |
| Submit.WithLabelPassesTest | submit.go:120-127 | once the label is added, a pull request passes the prefix test exactly when it passed before or the label itself starts with the branch name |
| Submit.RereadTest | submit.go:116-126 | reading a pull request again inside the loop fails exactly when the first read did, and passes the test exactly when the first read did or the loop already gave it a label starting with the branch name |
| Submit.LabelLoop | submit.go:115-131 | from any point of the loop: no failure exactly when no later pull request fails to read or to be labelled; a failure is the error of the first one that does; every labelled pull request is listed, had no label starting with the branch name and was labelled; without failure each such pull request is labelled now or was labelled earlier |
| Submit.LabelPullRequests | submit.go:114-133 | no failure exactly when no pull request fails to read or to be labelled; a failure is the error of the first one that does; every labelled pull request is listed and had no label starting with the branch name; without failure every such pull request got the label |
| Submit.FirstOccurrences | submit.go:115-131 | the first occurrences keep exactly the elements of the list that are not already seen |
| Submit.FirstOccurrencesDistinct | submit.go:115-131 | no element occurs twice among the first occurrences |
| Submit.LabelLoopLabels | submit.go:115-131 | from any point of the loop, the labelled pull requests are those needing the label before the first failing one, in order; when the label starts with the branch name a number that occurs again is labelled only the first time, since its re-read already carries the label |
| Submit.LabelledAreThoseNeedingIt | submit.go:114-133 | the labelled pull requests are, in order, those without a label starting with the branch name before the first failing one, each number once when the label starts with the branch name |
| Submit.LabelledOnce | submit.go:114-133 | when the label starts with the branch name, no pull request gets it twice, however often its number is listed |
| Submit.EveryPullRequestLabelled | submit.go:114-133 | after a loop without failure, every pull request was readable and either had a label starting with the branch name or got the new label |
| Submit.LabelBranch | submit.go:114-133 | the changes already made come first, followed by exactly one label addition per pull request the labelling loop labels, in its order (each listed and without a label starting with the branch name), and by nothing else for an empty branch name; a panic exactly for an empty branch name; success exactly when no pull request fails to read or to be labelled, and then every pull request is labelled for the branch |
| Submit.LabelRelease | submit.go:100-133 | the label is created, as the first change, exactly after a 404 and a successful creation; nothing changes when the label step fails or panics; with the label ready, the outcome is that of `Submit.LabelBranch` after the creation, if any, so the remaining changes are the labelling loop's additions; labels are added only to listed pull requests without a label starting with the branch name; success exactly when the label is ready and no pull request fails; a panic exactly for a label lookup without a response or an empty branch name; on success every listed pull request has a label starting with the branch name or got the new label |
| Submit.Submit | submit.go:50-133 | an invalid and a prerelease latest version are the two version errors; a panic exactly when, for a stable newest version, there is no earlier stable version, a title slice panics, the remote URL has no `/`, the version is empty, the label lookup has no response, or the branch name is empty; success means the numbers were collected from the commits picked since the first stable version before the newest, and the labelling then succeeded; once the numbers are collected, the remote URL has `/` and the version is non-empty, the outcome is that of the labelling; otherwise nothing is changed on GitHub |
| Add.Insert | add.go:73 | inserting into a sorted list keeps it sorted and adds exactly that element |
| Add.SortAscending | add.go:73 | the result is sorted and a permutation of the input |
| Add.SortedUnique | add.go:73 | two sorted lists with the same elements are equal |
| Add.PrIdList | add.go:62-73 | an error exactly when neither flag gives a number; otherwise the given numbers, sorted, duplicates kept |
| Add.PrIdListIsSortedInput | add.go:62-73 | the list is the only sorted arrangement of the given numbers |
| Add.FetchPullRequests | add.go:88-95 | success exactly when every pull request can be read and has a merge hash of at least ten bytes, giving them in list order; otherwise the first that cannot be read, or the panic of a short hash |
| Add.ReadableInAnyOrder | add.go:73-95 | whether every listed pull request is readable does not depend on the order of the list |
| Add.FetchSorted | add.go:73-95 | reading the sorted numbers succeeds exactly when every given number is readable; a failed read names a given number that cannot be read |
| Add.HasCommitInBranch | add.go:123-129 | the commit is present exactly when the pipeline succeeded; the fatal exit never happens |
| Add.CherryPickCommits | add.go:107-121 | the steps follow the list in order; a merge commit is skipped exactly when the branch contains it, otherwise cherry-picked; the batch stops at the first failed cherry-pick and carries its output; it runs to the end exactly when every merge commit is contained or cherry-picks |
| Add.Prepare | add.go:53-95 | the three argument errors occur exactly for a missing branch flag, an unknown branch, and no numbers; ready exactly when there are numbers, an `owner/repo` remote and every pull request readable, with the pull requests read for the sorted numbers in order; a panic exactly for a remote without `/` or a short hash met before any unreadable pull request; a failed read names a given number |
| Add.Add | add.go:38-103 | the three argument errors occur exactly for a missing branch flag, an unknown branch, and no numbers; each step carries the merge hash of the pull request at its position and is a skip exactly when the branch contains it; success exactly when the batch can start and every merge commit is contained or cherry-picks; a panic exactly as before the batch; a cherry-pick failure exactly when the batch can start and some merge commit is neither contained nor picked, and it is the first such commit, with its output, every earlier one being contained or picked; a failed read names a given number that GitHub could not return; nothing is skipped or cherry-picked unless the batch can start |
| Add.ReadPullRequests | add.go:75-95 | a remote URL without `/` panics; ready exactly when every number is readable, with the pull requests read in order; otherwise the first unreadable number or short hash decides between a failed read of that number and a panic |

## Left out

- The git repository, GitHub and the shell are parameters, not effects. This covers `git.PlainOpen`, `repo.Log`, `repo.Tag`/`TagObject`, `repo.Remote`, `repo.Branch`, the GitHub client calls, `exec.Command` and `git checkout`. Their answers are inputs, and the model states what the commands do with any answer, except for the `origin` remote lookup, the failing `repo.Log` and the unreadable tag target below.
- `--repo` validation and the failure to open the repository are not modelled, because they only guard the real I/O.
- `repo.Remote("origin")` is not modelled: the commands take the remote's first URL as the input `originUrl`. A failed lookup is a fatal exit (show.go:107-108, submit.go:88-89, add.go:76-77), and a remote without URLs panics at `URLs[0]`; neither case can be expressed with that input.
- A failing `repo.Log` is not modelled: the logs are sequences of commits. In `show`, its error is dropped at show.go:97 and show.go:113 and `ForEach` on the nil iterator panics; `hasEqualCommitInRepo` exits fatally (show.go:143-145).
- An annotated tag whose target cannot be read as a commit is not modelled: a tag's target is a commit. At show.go:73 the error of `tagObj.Commit()` is dropped, and the nil commit is dereferenced afterwards.
- Checking out branches (`checkoutBranch`, `isCurrentBranch`) is not modelled, because it changes which log the I/O returns, and those logs are inputs here.
- `getLatestVersion`, `getAllVersions`, `getBranch` and `getAllCommitsPickedForUpcomingRelease` are not part of this model. `Submit.Submit` takes what they return as inputs: the newest tag, its parsed prerelease part, the versions newest first, the picked titles per version, and the release branch.
- Semantic-version parsing and ordering (`version.NewSemver`, `sort.Reverse`) are not modelled. The parse outcome and the sorted list are inputs.
- `getCommitForTag` is not modelled, because none of the three commands calls it.
- `main.go` (the command table and global flags) is not modelled.
- Show.Show: the early return at show.go:33-36, which prints the help text and succeeds when no flag at all is set, is not modelled; without a version the model reports `VersionRequired`, which the code reaches only when other flags are set.
- Add.Add: the early return at add.go:39-43, which prints the help text and succeeds when no flag at all is set, is not modelled; without a branch the model reports `BranchRequired`, which the code reaches only when other flags are set.
- Submit.LabelName: `latestVer[1:]` (submit.go:101) and `getBranch(latestVer)[1:]` (submit.go:114) drop one byte; the model drops one character. They differ only when the version starts with a non-ASCII character, and those strings are produced by the version library and `getBranch`, which are not part of this model.
- Tables, progress and log messages are not modelled, and neither is the days-since-merge column of `show` (it reads the clock). A `show` row keeps the commit, the reference and the title.
- The three-second GitHub timeouts are not modelled. A timed-out call is a failed answer.
- `show` walks the master log twice: once in committer-time order to find counterparts, and once in default order for the report. The two orders are separate inputs, `masterByTime` and `masterLog`.
- `show` keeps the release-branch messages in a Go map. Only membership is ever read, so the model uses a set.
- Invalid UTF-8 is not modelled: strings are sequences of Unicode scalar values.
- Show.FindEqualMessage: the "nothing found" clause is stated one way, as "no master commit has the message". The other direction follows from the "found" clauses, which give the first position holding the message.
- Show.ListUnreleased: the contract gives the rows' commits as the reported commits, in order; which commits the master scan reports is stated by `Show.UnreleasedCommits` and `Show.UnreleasedIsFilteredPrefix`.
- Show.Show: the contract states the argument errors, the panics and what a listing is made of, row by row. The fatal errors after the argument check (a missing tag, a missing parent, exhausted retries, a missing branch, a failed lookup) are stated on the parts they come from: `Show.Diverge` for the divergence search, `Show.RowsOf` for the lookups.
- GoStrings.TrimSpace: the contract does not state that exactly the outer white space is removed. `GoStrings.TrimLeft` and `GoStrings.TrimRight` state that for each side.
- GoStrconv.Atoi: the contract states what an accepted string looks like. Its partners `GoStrconv.AtoiItoa` and `GoStrconv.AtoiDecimal` state that every decimal notation is read back exactly.
- Utils.OwnerAndRepo and Utils.PrIdText require the inputs on which Go does not panic. `Show.Show`, `Submit.Submit` and `Add.Prepare` model the panic when the remote URL has no `/`, and `Utils.PrIdInt` models the slice panics of the title parse.

## Findings

| source | as written | input that shows it | evidently intended | confidence | as-written member | corrected member |
|---|---|---|---|---|---|---|
| utils.go:110-113 | `findEqualCommitInRepo` ("must have the same title") looks for the first commit whose title CONTAINS the title | title `Fix` against a log whose first commit is titled `Fix CI` finds `Fix CI` | the first commit whose title equals the title | not executed | Utils.FindEqualCommitMatchesLongerTitle | Utils.FindSameTitleCommit |
| show.go:134 | the `show` row reference is built from `pr.GetID()`, GitHub's internal identifier | any pull request whose identifier differs from its number (they always differ on GitHub) | `owner/repo#N` with the pull request's number | not executed | Show.RowReferenceNamesIdentifier | Show.RowReferenceNamesNumber |
| submit.go:122 | a pull request counts as labelled for release branch `X.Y` when any label starts with `X.Y` | branch `2.1` and label `2.10.0`: the pull request is skipped and never labelled `2.1.x` | a label that is the branch or starts with the branch followed by `.` | not executed | Submit.OtherBranchLabelCountsAsWritten | Submit.LabelOfOneBranch |

The commands follow the code as written; each corrected definition stands
beside the written one with its intended property proved:

- `Show.Show` builds its rows with `Show.RowReferenceAsWritten`, from the identifier; `Show.RowReference` is the reference from the number, and `Show.RowReferenceNamesNumber` proves it reads back as that number.
- `Submit.LabelPullRequests` tests labels with `Submit.AlreadyLabeledAsWritten`, the prefix test; `Submit.AlreadyLabeled` is the intended test, which `Submit.LabelOfOneBranch` proves assigns a label to at most one release branch of a major version.
- `Utils.FindEqualCommitAsWritten` is the substring search; `Utils.FindSameTitleCommit` is the search by equal title.

=== FILE: add.dfy ===
/**
 The `add` command: gather the pull-request numbers given on the command
 line, sort them, read each pull request's merge commit from GitHub, and
 cherry-pick onto the release branch every merge commit it does not already
 contain, stopping at the first cherry-pick that fails.
 */
module Add {
  import opened Outcomes
  import opened GoStrings
  import opened GitHub
  import opened Utils

  datatype AddError =
    | BranchRequired
    | InvalidBranch(branch: string)
    | NoPullRequest
    | PullRequestFetchFailed(pr: int)
    | CherryPickFailed(output: string)

  /*
   * The pull-request list
   */

  predicate Sorted(s: seq<int>) {
    forall i, j :: 0 <= i < j < |s| ==> s[i] <= s[j]
  }

  /** Puts `x` into a sorted list, before the first element not smaller than it. */
  function Insert(x: int, s: seq<int>): (r: seq<int>)
    requires Sorted(s)
    ensures |r| == |s| + 1
    ensures Sorted(r)
    ensures multiset(r) == multiset(s) + multiset{x}
    ensures r[0] == x || (|s| > 0 && r[0] == s[0])
    decreases |s|
  {
    if |s| == 0 || x <= s[0] then [x] + s
    else
      var rest := Insert(x, s[1..]);
      assert s == [s[0]] + s[1..];
      assert s[0] <= rest[0];
      [s[0]] + rest
  }

  /** `sort.Ints`: the list in ascending order. */
  function SortAscending(s: seq<int>): (r: seq<int>)
    ensures |r| == |s|
    ensures Sorted(r)
    ensures multiset(r) == multiset(s)
    decreases |s|
  {
    if |s| == 0 then []
    else
      assert s == [s[0]] + s[1..];
      Insert(s[0], SortAscending(s[1..]))
  }

  /** The head of a sorted list is its least element. */
  lemma SortedHeadIsLeast(a: seq<int>, x: int)
    requires Sorted(a) && x in multiset(a)
    ensures |a| > 0 && a[0] <= x
  {
    assert x in a;
  }

  /** Two sorted lists with the same elements, counted with multiplicity, are equal. */
  lemma {:induction false} SortedUnique(a: seq<int>, b: seq<int>)
    requires Sorted(a) && Sorted(b) && multiset(a) == multiset(b)
    ensures a == b
    decreases |a|
  {
    if |a| == 0 {
      assert |multiset(b)| == 0;
    } else {
      assert a[0] in multiset(a);
      SortedHeadIsLeast(b, a[0]);
      assert b[0] in multiset(b);
      SortedHeadIsLeast(a, b[0]);
      var a', b' := a[1..], b[1..];
      assert a == [a[0]] + a';
      assert b == [b[0]] + b';
      assert multiset(a) == multiset{a[0]} + multiset(a');
      assert multiset(b) == multiset{b[0]} + multiset(b');
      assert a[0] == b[0];
      assert multiset(a') == multiset(a) - multiset{a[0]};
      assert multiset(b') == multiset(b) - multiset{b[0]};
      assert Sorted(a') && Sorted(b');
      SortedUnique(a', b');
    }
  }

  /** The numbers as given: `--pr` when set, then `--pr-list`. */
  function Given(pr: Option<int>, prList: seq<int>): seq<int> {
    (if pr.Some? then [pr.value] else []) + prList
  }

  /** The pull-request list of `add`: the given numbers in ascending order, duplicates kept; none at all is an error. */
  function PrIdList(pr: Option<int>, prList: seq<int>): (r: Result<seq<int>, AddError>)
    ensures r.Err? <==> pr.None? && prList == []
    ensures r.Err? ==> r.error == NoPullRequest
    ensures r.Ok? ==> Sorted(r.value) && multiset(r.value) == multiset(Given(pr, prList))
  {
    var ids := Given(pr, prList);
    if |ids| == 0 then Err(NoPullRequest) else Ok(SortAscending(ids))
  }

  /** The list is the one sorted arrangement of the given numbers. */
  lemma PrIdListIsSortedInput(pr: Option<int>, prList: seq<int>, t: seq<int>)
    requires pr.Some? || prList != []
    requires Sorted(t) && multiset(t) == multiset(Given(pr, prList))
    ensures PrIdList(pr, prList) == Ok(t)
  {
    SortedUnique(PrIdList(pr, prList).value, t);
  }

  /*
   * Reading the pull requests
   */

  /** The pull request can be read and its merge-commit hash has the ten bytes the table prints. */
  predicate Readable(fetch: int -> Option<PullRequest>, id: int) {
    fetch(id).Some? && Utf8Length(fetch(id).value.mergeCommitSha) >= 10
  }

  /** Whether every listed pull request can be read does not depend on the order of the list. */
  lemma ReadableInAnyOrder(fetch: int -> Option<PullRequest>, a: seq<int>, b: seq<int>)
    requires multiset(a) == multiset(b)
    ensures (forall k :: 0 <= k < |a| ==> Readable(fetch, a[k])) <==> (forall k :: 0 <= k < |b| ==> Readable(fetch, b[k]))
  {
    forall k | 0 <= k < |a| ensures a[k] in b {
      assert a[k] in multiset(a);
    }
    forall k | 0 <= k < |b| ensures b[k] in a {
      assert b[k] in multiset(b);
    }
  }

  /** The pull requests, or the first that cannot be read, or the panic of a merge-commit hash shorter than ten bytes. */
  datatype Fetched = Fetched(prs: seq<PullRequest>) | FetchFailed(id: int) | FetchPanicked

  /** The loop that reads every listed pull request from GitHub, in list order. */
  function FetchPullRequests(ids: seq<int>, fetch: int -> Option<PullRequest>): (r: Fetched)
    ensures r.Fetched? <==> forall k :: 0 <= k < |ids| ==> Readable(fetch, ids[k])
    ensures r.Fetched? ==> |r.prs| == |ids| && forall k :: 0 <= k < |ids| ==> fetch(ids[k]) == Some(r.prs[k])
    ensures r.FetchFailed? ==> exists k ::
      && 0 <= k < |ids| && ids[k] == r.id && fetch(ids[k]).None?
      && forall j :: 0 <= j < k ==> Readable(fetch, ids[j])
    ensures r.FetchPanicked? ==> exists k ::
      && 0 <= k < |ids| && fetch(ids[k]).Some? && !Readable(fetch, ids[k])
      && forall j :: 0 <= j < k ==> Readable(fetch, ids[j])
    decreases |ids|
  {
    if |ids| == 0 then Fetched([])
    else
      assert forall k :: 1 <= k < |ids| ==> ids[k] == ids[1..][k - 1];
      match fetch(ids[0])
      case None => FetchFailed(ids[0])
      case Some(pr) =>
        if Utf8Length(pr.mergeCommitSha) < 10 then FetchPanicked
        else match FetchPullRequests(ids[1..], fetch)
          case Fetched(rest) => Fetched([pr] + rest)
          case other =>
            assert !Readable(fetch, ids[0]) ==> false;
            other
  }

  /**
   Reading the given numbers in ascending order succeeds exactly when every
   one of them is readable, and a read that fails names one of them.
   */
  lemma FetchSorted(fetch: int -> Option<PullRequest>, given: seq<int>)
    ensures var f := FetchPullRequests(SortAscending(given), fetch);
      && (f.Fetched? <==> forall k :: 0 <= k < |given| ==> Readable(fetch, given[k]))
      && (f.FetchFailed? ==> f.id in given && fetch(f.id).None?)
  {
    var ids := SortAscending(given);
    ReadableInAnyOrder(fetch, ids, given);
    var f := FetchPullRequests(ids, fetch);
    if f.FetchFailed? {
      var k :| 0 <= k < |ids| && ids[k] == f.id && fetch(ids[k]).None?;
      assert f.id in multiset(ids);
    }
  }

  /*
   * The cherry-pick batch
   */

  /** The answer of `hasCommitInBranch`; `Aborted` is its fatal exit. */
  datatype Presence = Present | Absent | Aborted

  /**
   `hasCommitInBranch`, given the run of the `git branch --contains` pipeline:
   exit when the pipeline failed with output, else report whether it
   succeeded.
   */
  function HasCommitInBranch(run: ShellRun): (r: Presence)
    ensures r != Aborted
    ensures r == Present <==> run.succeeded
  {
    var out := ExecuteAndGet(run);
    if out.err.Some? && |out.result| != 0 then Aborted
    else if out.err.None? then Present
    else Absent
  }

  /** What the batch did with one pull request's merge commit. */
  datatype Step = Skipped(sha: string) | Picked(sha: string)

  /** The steps taken, in order, and the output of the cherry-pick that failed, if one did. */
  datatype Batch = Batch(steps: seq<Step>, failure: Option<string>)

  /** The step for the `k`-th pull request, given whether the branch already contains its merge commit. */
  function StepFor(prs: seq<PullRequest>, contains: nat -> ShellRun, k: nat): Step
    requires k < |prs|
  {
    if contains(k).succeeded then Skipped(prs[k].mergeCommitSha) else Picked(prs[k].mergeCommitSha)
  }

  /**
   `cherryPickCommits`: for the `k`-th pull request, `contains(k)` is the run
   of the containment pipeline and `pick(k)` that of `git cherry-pick`. A
   contained merge commit is skipped; any other is cherry-picked, and the
   first failing cherry-pick ends the batch with its error.
   */
  method CherryPickCommits(prs: seq<PullRequest>, contains: nat -> ShellRun, pick: nat -> ShellRun) returns (b: Batch)
    ensures |b.steps| <= |prs|
    ensures b.failure.None? <==> |b.steps| == |prs|
    ensures forall k :: 0 <= k < |b.steps| ==> b.steps[k] == StepFor(prs, contains, k)
    ensures forall k :: 0 <= k < |b.steps| && b.steps[k].Picked? ==> pick(k).succeeded
    ensures b.failure.Some? ==>
      var n := |b.steps|; !contains(n).succeeded && !pick(n).succeeded && b.failure.value == pick(n).output
    ensures b.failure.None? <==> forall k :: 0 <= k < |prs| ==> contains(k).succeeded || pick(k).succeeded
    ensures forall k :: 0 <= k < |b.steps| ==> contains(k).succeeded || pick(k).succeeded
  {
    var steps: seq<Step> := [];
    var i := 0;
    while i < |prs|
      invariant 0 <= i <= |prs| && |steps| == i
      invariant forall k :: 0 <= k < i ==> steps[k] == StepFor(prs, contains, k)
      invariant forall k :: 0 <= k < i && steps[k].Picked? ==> pick(k).succeeded
      invariant forall k :: 0 <= k < i ==> contains(k).succeeded || pick(k).succeeded
    {
      var sha := prs[i].mergeCommitSha;
      if HasCommitInBranch(contains(i)) == Present {
        steps := steps + [Skipped(sha)];
      } else {
        var out := ExecuteAndGet(pick(i));
        if out.err.Some? {
          return Batch(steps, out.err);
        }
        steps := steps + [Picked(sha)];
      }
      i := i + 1;
    }
    return Batch(steps, None);
  }

  /*
   * The whole command
   */

  datatype AddStatus = Added | AddFailed(error: AddError) | AddPanicked

  /** The sorted pull-request list, the batch's steps, and how the command ended. */
  datatype AddOutcome = AddOutcome(ids: seq<int>, steps: seq<Step>, status: AddStatus)

  /** The command up to the batch: either the pull requests to cherry-pick, or the way it stopped before the batch. */
  datatype Prepared = Ready(ids: seq<int>, prs: seq<PullRequest>) | Stopped(ids: seq<int>, status: AddStatus)

  /**
   Everything `add` needs before its batch: a branch that exists, at least
   one pull-request number, an `owner/repo` remote, and every listed pull
   request readable with a merge-commit hash of at least ten bytes.
   */
  predicate CanStart(
    branch: string, branchExists: bool, pr: Option<int>, prList: seq<int>, originUrl: string,
    fetch: int -> Option<PullRequest>)
  {
    && branch != [] && branchExists && Given(pr, prList) != [] && '/' in originUrl
    && forall k :: 0 <= k < |Given(pr, prList)| ==> Readable(fetch, Given(pr, prList)[k])
  }

  /**
   The runtime panics of `add` before its batch: a remote URL without `/`, or,
   reading the pull requests in ascending order, a merge-commit hash shorter
   than ten bytes before any pull request that cannot be read.
   */
  predicate PanicsBeforeBatch(
    branch: string, branchExists: bool, pr: Option<int>, prList: seq<int>, originUrl: string,
    fetch: int -> Option<PullRequest>)
  {
    && branch != [] && branchExists && Given(pr, prList) != []
    && ('/' !in originUrl || FetchPullRequests(SortAscending(Given(pr, prList)), fetch).FetchPanicked?)
  }

  /**
   The part of `add` after the pull-request list is built: the remote URL must
   name `owner/repo`, then every pull request of the sorted list is read.
   */
  function ReadPullRequests(ids: seq<int>, originUrl: string, fetch: int -> Option<PullRequest>): (r: Prepared)
    ensures r.ids == ids
    ensures r.Ready? <==> '/' in originUrl && forall k :: 0 <= k < |ids| ==> Readable(fetch, ids[k])
    ensures r.Ready? ==> |r.prs| == |ids| && forall k :: 0 <= k < |ids| ==> fetch(ids[k]) == Some(r.prs[k])
    ensures (r.Stopped? && r.status == AddPanicked) <==>
      '/' !in originUrl || FetchPullRequests(ids, fetch).FetchPanicked?
    ensures r.Stopped? && r.status != AddPanicked ==>
      && FetchPullRequests(ids, fetch).FetchFailed?
      && r.status == AddFailed(PullRequestFetchFailed(FetchPullRequests(ids, fetch).id))
  {
    if '/' !in originUrl then Stopped(ids, AddPanicked)
    else match FetchPullRequests(ids, fetch)
      case FetchFailed(id) => Stopped(ids, AddFailed(PullRequestFetchFailed(id)))
      case FetchPanicked => Stopped(ids, AddPanicked)
      case Fetched(prs) => Ready(ids, prs)
  }

  /**
   The checks and reads of `add` before the batch: the branch flag, the
   branch itself, the pull-request list, the remote URL, and the read of
   every listed pull request.
   */
  function Prepare(
    branch: string, branchExists: bool, pr: Option<int>, prList: seq<int>, originUrl: string,
    fetch: int -> Option<PullRequest>): (r: Prepared)
    ensures r.Stopped? ==> !r.status.Added?
    ensures (r.Stopped? && r.status == AddFailed(BranchRequired)) <==> branch == []
    ensures (r.Stopped? && r.status == AddFailed(InvalidBranch(branch))) <==> branch != [] && !branchExists
    ensures (r.Stopped? && r.status == AddFailed(NoPullRequest)) <==>
      branch != [] && branchExists && pr.None? && prList == []
    ensures r.ids != [] ==> Sorted(r.ids) && multiset(r.ids) == multiset(Given(pr, prList))
    ensures r.Ready? ==> r.ids != [] && '/' in originUrl
    ensures r.Ready? ==> |r.prs| == |r.ids| && forall k :: 0 <= k < |r.ids| ==> fetch(r.ids[k]) == Some(r.prs[k])
    ensures r.Ready? <==> CanStart(branch, branchExists, pr, prList, originUrl, fetch)
    ensures (r.Stopped? && r.status == AddPanicked) <==> PanicsBeforeBatch(branch, branchExists, pr, prList, originUrl, fetch)
    ensures r.Stopped? && r.status.AddFailed? && r.status.error.PullRequestFetchFailed? ==>
      r.status.error.pr in Given(pr, prList) && fetch(r.status.error.pr).None?
  {
    if branch == [] then Stopped([], AddFailed(BranchRequired))
    else if !branchExists then Stopped([], AddFailed(InvalidBranch(branch)))
    else match PrIdList(pr, prList)
      case Err(e) => Stopped([], AddFailed(e))
      case Ok(ids) =>
        assert ids == SortAscending(Given(pr, prList));
        FetchSorted(fetch, Given(pr, prList));
        ReadPullRequests(ids, originUrl, fetch)
  }

  /**
   The `add` command. `branchExists` tells whether the repository has the
   branch; `pr` and `prList` are the flags; `fetch` reads a pull request from
   GitHub; `contains` and `pick` are the shell runs of the batch.
   */
  method Add(
    branch: string, branchExists: bool, pr: Option<int>, prList: seq<int>, originUrl: string,
    fetch: int -> Option<PullRequest>, contains: nat -> ShellRun, pick: nat -> ShellRun) returns (r: AddOutcome)
    ensures r.status == AddFailed(BranchRequired) <==> branch == []
    ensures r.status == AddFailed(InvalidBranch(branch)) <==> branch != [] && !branchExists
    ensures r.status == AddFailed(NoPullRequest) <==> branch != [] && branchExists && pr.None? && prList == []
    ensures r.ids != [] ==> Sorted(r.ids) && multiset(r.ids) == multiset(Given(pr, prList))
    ensures |r.steps| <= |r.ids|
    ensures forall k :: 0 <= k < |r.steps| ==>
      && fetch(r.ids[k]).Some?
      && r.steps[k].sha == fetch(r.ids[k]).value.mergeCommitSha
      && (r.steps[k].Skipped? <==> contains(k).succeeded)
    ensures r.status.Added? ==> |r.steps| == |r.ids| && r.ids != []
    ensures r.status.Added? <==>
      && CanStart(branch, branchExists, pr, prList, originUrl, fetch)
      && forall k :: 0 <= k < |r.ids| ==> contains(k).succeeded || pick(k).succeeded
    ensures r.status == AddPanicked <==> PanicsBeforeBatch(branch, branchExists, pr, prList, originUrl, fetch)
    ensures r.status.AddFailed? && r.status.error.CherryPickFailed? ==>
      && CanStart(branch, branchExists, pr, prList, originUrl, fetch)
      && var n := |r.steps|;
        n < |r.ids| && !contains(n).succeeded && !pick(n).succeeded && r.status.error.output == pick(n).output
    // Every merge commit before the failing one was contained or picked, so the failure is the first.
    ensures forall k :: 0 <= k < |r.steps| ==> contains(k).succeeded || pick(k).succeeded
    ensures (r.status.AddFailed? && r.status.error.CherryPickFailed?) <==>
      && CanStart(branch, branchExists, pr, prList, originUrl, fetch)
      && exists k :: 0 <= k < |r.ids| && !contains(k).succeeded && !pick(k).succeeded
    ensures r.status.AddFailed? && r.status.error.PullRequestFetchFailed? ==>
      r.status.error.pr in Given(pr, prList) && fetch(r.status.error.pr).None?
    // Nothing is cherry-picked or skipped unless every read before the batch succeeded.
    ensures !CanStart(branch, branchExists, pr, prList, originUrl, fetch) ==> r.steps == []
  {
    var p := Prepare(branch, branchExists, pr, prList, originUrl, fetch);
    if p.Stopped? {
      return AddOutcome(p.ids, [], p.status);
    }
    assert branch != [] && branchExists && (pr.Some? || prList != []);
    var batch := CherryPickCommits(p.prs, contains, pick);
    forall k | 0 <= k < |batch.steps|
      ensures fetch(p.ids[k]) == Some(p.prs[k])
      ensures batch.steps[k].sha == p.prs[k].mergeCommitSha
      ensures batch.steps[k].Skipped? <==> contains(k).succeeded
    {
      assert batch.steps[k] == StepFor(p.prs, contains, k);
    }
    var status := if batch.failure.None? then Added else AddFailed(CherryPickFailed(batch.failure.value));
    return AddOutcome(p.ids, batch.steps, status);
  }
}

=== FILE: github.dfy ===
/** What the tool reads from GitHub. */
module GitHub {

  /**
   A pull request: GitHub's internal `id`, the `number` shown as `#N`, its title,
   the hash of its merge commit and the names of its labels.
   */
  datatype PullRequest = PullRequest(
    id: int,
    number: int,
    title: string,
    mergeCommitSha: string,
    labels: seq<string>)
}

=== FILE: go_strconv.dfy ===
/**
 Go's decimal integer conversions: `strconv.Atoi` on a 64-bit platform and the
 `%d` verb of `fmt`.
 */
module GoStrconv {
  import opened Outcomes

  /** The range of Go's `int` on a 64-bit platform. */
  const MinInt: int := -0x8000_0000_0000_0000
  const MaxInt: int := 0x7FFF_FFFF_FFFF_FFFF

  predicate InIntRange(n: int) {
    MinInt <= n <= MaxInt
  }

  predicate IsDigit(c: char) {
    '0' <= c <= '9'
  }

  predicate AllDigits(s: string) {
    forall i :: 0 <= i < |s| ==> IsDigit(s[i])
  }

  function DigitValue(c: char): nat
    requires IsDigit(c)
  {
    (c as int) - ('0' as int)
  }

  function DigitChar(d: nat): (c: char)
    requires d < 10
    ensures IsDigit(c) && DigitValue(c) == d
  {
    (('0' as int) + d) as char
  }

  /** The number a run of decimal digits denotes, read most significant first. */
  function DigitsValue(s: string): nat
    requires AllDigits(s)
    decreases |s|
  {
    if |s| == 0 then 0 else 10 * DigitsValue(s[..|s| - 1]) + DigitValue(s[|s| - 1])
  }

  /** The decimal notation of a natural number, without leading zeros. */
  function Decimal(n: nat): (s: string)
    ensures |s| >= 1 && AllDigits(s)
    ensures |s| > 1 ==> s[0] != '0'
    decreases n
  {
    if n < 10 then [DigitChar(n)] else Decimal(n / 10) + [DigitChar(n % 10)]
  }

  /** `fmt.Sprintf("%d", n)`. */
  function Itoa(n: int): (s: string)
    ensures |s| >= 1
    ensures s[0] == '-' <==> n < 0
    ensures AllDigits(if n < 0 then s[1..] else s)
  {
    if n < 0 then "-" + Decimal(-n) else Decimal(n)
  }

  /**
   `strconv.Atoi`: an optional sign followed by at least one decimal digit,
   whose value fits in a 64-bit `int`; anything else is an error (`None`).
   */
  function Atoi(s: string): (r: Option<int>)
    ensures r.Some? ==> InIntRange(r.value)
    ensures r.Some? ==> |s| >= 1 && (IsDigit(s[0]) || s[0] == '-' || s[0] == '+') && AllDigits(s[1..])
    ensures r.Some? ==> (r.value < 0 ==> s[0] == '-')
  {
    if |s| == 0 then None
    else
      var digits := if s[0] == '-' || s[0] == '+' then s[1..] else s;
      if |digits| == 0 || !AllDigits(digits) then None
      else
        var magnitude: int := DigitsValue(digits);
        var v := if s[0] == '-' then -magnitude else magnitude;
        if InIntRange(v) then Some(v) else None
  }

  /** Reading back the decimal notation of `n` gives `n`. */
  lemma {:induction false} DecimalValue(n: nat)
    ensures DigitsValue(Decimal(n)) == n
    decreases n
  {
    if n >= 10 {
      var s := Decimal(n);
      DecimalValue(n / 10);
      assert s[..|s| - 1] == Decimal(n / 10);
    }
  }

  /** `Atoi` inverts `Itoa` on every 64-bit integer. */
  lemma AtoiItoa(n: int)
    requires InIntRange(n)
    ensures Atoi(Itoa(n)) == Some(n)
  {
    var s := Itoa(n);
    if n < 0 {
      var d := Decimal(-n);
      assert s == "-" + d;
      assert s[0] == '-' && s[1..] == d;
      DecimalValue(-n);
      assert DigitsValue(s[1..]) == -n;
    } else {
      assert s == Decimal(n);
      assert IsDigit(s[0]);
      DecimalValue(n);
    }
  }

  /** `Atoi` accepts the decimal notation of every natural number up to `MaxInt`. */
  lemma AtoiDecimal(n: nat)
    requires n <= MaxInt
    ensures Atoi(Decimal(n)) == Some(n)
  {
    AtoiItoa(n);
  }
}

=== FILE: go_strings.dfy ===
/**
 The subset of Go's `strings` package the release tool relies on. A string is
 modelled as its sequence of Unicode scalar values, and positions count
 characters where Go's count bytes of the UTF-8 encoding. The two agree for
 every slice the tool takes at an ASCII delimiter it searched for (`(`, `)`,
 `/`, `.`, `\n`, `#`); the slices that drop or keep a fixed number of bytes
 are modelled through `Utf8Length` and the first character's width where they
 are taken.
 */
module GoStrings {

  /** White space as Go's `unicode.IsSpace` defines it. */
  predicate IsSpace(c: char) {
    var n := c as int;
    (0x09 <= n <= 0x0D) || n == 0x20 || n == 0x85 || n == 0xA0 || n == 0x1680
    || (0x2000 <= n <= 0x200A) || n == 0x2028 || n == 0x2029 || n == 0x202F
    || n == 0x205F || n == 0x3000
  }

  /** Neither starts nor ends with white space. */
  predicate IsTrimmed(s: string) {
    s == [] || (!IsSpace(s[0]) && !IsSpace(s[|s| - 1]))
  }

  /** Drops the leading white space. */
  function TrimLeft(s: string): (r: string)
    ensures |r| <= |s| && r == s[|s| - |r|..]
    ensures forall i :: 0 <= i < |s| - |r| ==> IsSpace(s[i])
    ensures r == [] || !IsSpace(r[0])
    decreases |s|
  {
    if |s| > 0 && IsSpace(s[0]) then TrimLeft(s[1..]) else s
  }

  /** Drops the trailing white space. */
  function TrimRight(s: string): (r: string)
    ensures |r| <= |s| && r == s[..|r|]
    ensures forall i :: |r| <= i < |s| ==> IsSpace(s[i])
    ensures r == [] || !IsSpace(r[|r| - 1])
    decreases |s|
  {
    if |s| > 0 && IsSpace(s[|s| - 1]) then TrimRight(s[..|s| - 1]) else s
  }

  /** `strings.TrimSpace`. */
  function TrimSpace(s: string): (r: string)
    ensures IsTrimmed(r)
    ensures |r| <= |s|
    ensures forall c :: c in r ==> c in s
    ensures IsTrimmed(s) ==> r == s
  {
    var l := TrimLeft(s);
    var r := TrimRight(l);
    assert forall c :: c in r ==> c in l;
    r
  }

  /** The first position at or after `from` that holds `c`, or -1. */
  function IndexFrom(s: string, c: char, from: nat): (r: int)
    requires from <= |s|
    ensures r == -1 || from <= r < |s|
    ensures r >= 0 ==> s[r] == c
    ensures forall j :: from <= j < |s| && (r < 0 || j < r) ==> s[j] != c
    decreases |s| - from
  {
    if from == |s| then -1
    else if s[from] == c then from
    else IndexFrom(s, c, from + 1)
  }

  /** `strings.IndexByte`: the first position of `c`, or -1. */
  function IndexOf(s: string, c: char): (r: int)
    ensures -1 <= r < |s|
    ensures r == -1 <==> c !in s
    ensures r >= 0 ==> s[r] == c
    ensures forall j :: 0 <= j < r ==> s[j] != c
  {
    IndexFrom(s, c, 0)
  }

  /** The last position below `n` that holds `c`, or -1. */
  function LastIndexBelow(s: string, c: char, n: nat): (r: int)
    requires n <= |s|
    ensures -1 <= r < n
    ensures r >= 0 ==> s[r] == c
    ensures forall j :: r < j < n ==> s[j] != c
    decreases n
  {
    if n == 0 then -1
    else if s[n - 1] == c then n - 1
    else LastIndexBelow(s, c, n - 1)
  }

  /** `strings.LastIndex` for a one-character needle: the last position of `c`, or -1. */
  function LastIndexOf(s: string, c: char): (r: int)
    ensures -1 <= r < |s|
    ensures r == -1 <==> c !in s
    ensures r >= 0 ==> s[r] == c
    ensures forall j :: r < j < |s| ==> s[j] != c
  {
    LastIndexBelow(s, c, |s|)
  }

  /** The number of bytes of the UTF-8 encoding of `c`. */
  function Utf8Width(c: char): (r: nat)
    ensures 1 <= r <= 4
    ensures r == 1 <==> c as int < 0x80
  {
    if c as int < 0x80 then 1
    else if c as int < 0x800 then 2
    else if c as int < 0x10000 then 3
    else 4
  }

  /** Go's `len`: the number of bytes of the UTF-8 encoding of `s`. */
  function Utf8Length(s: string): (r: nat)
    ensures |s| <= r <= 4 * |s|
    ensures r == |s| <==> forall k :: 0 <= k < |s| ==> s[k] as int < 0x80
    decreases |s|
  {
    if s == [] then 0
    else
      assert forall k :: 1 <= k < |s| ==> s[k] == s[1..][k - 1];
      Utf8Width(s[0]) + Utf8Length(s[1..])
  }

  /** The encoding of a concatenation is the concatenation of the encodings. */
  lemma {:induction false} Utf8LengthAppend(a: string, b: string)
    ensures Utf8Length(a + b) == Utf8Length(a) + Utf8Length(b)
    decreases |a|
  {
    if a != [] {
      assert (a + b)[0] == a[0] && (a + b)[1..] == a[1..] + b;
      Utf8LengthAppend(a[1..], b);
    } else {
      assert a + b == b;
    }
  }

  /** `strings.HasPrefix`. */
  predicate HasPrefix(s: string, prefix: string)
    ensures HasPrefix(s, prefix) ==> |prefix| <= |s| && s == prefix + s[|prefix|..]
  {
    |prefix| <= |s| && s[..|prefix|] == prefix
  }

  /** `s` has `prefix` exactly when it is at least as long and agrees with it position by position. */
  lemma HasPrefixAgrees(s: string, prefix: string)
    ensures HasPrefix(s, prefix) <==> |prefix| <= |s| && forall i :: 0 <= i < |prefix| ==> s[i] == prefix[i]
  {
    if |prefix| <= |s| && forall i :: 0 <= i < |prefix| ==> s[i] == prefix[i] {
      assert s[..|prefix|] == prefix;
    }
  }

  /** Every string starts with itself followed by anything. */
  lemma HasPrefixOfAppend(prefix: string, t: string)
    ensures HasPrefix(prefix + t, prefix)
  {
    assert (prefix + t)[..|prefix|] == prefix;
  }

  /** `strings.HasSuffix`. */
  predicate HasSuffix(s: string, suffix: string) {
    |suffix| <= |s| && s[|s| - |suffix|..] == suffix
  }

  /** `strings.TrimSuffix`: removes one occurrence of `suffix` at the end, if present. */
  function TrimSuffix(s: string, suffix: string): (r: string)
    ensures HasSuffix(s, suffix) ==> r + suffix == s
    ensures !HasSuffix(s, suffix) ==> r == s
  {
    if HasSuffix(s, suffix) then s[..|s| - |suffix|] else s
  }

  /** `strings.Contains`: `sub` occurs somewhere in `s`. */
  predicate Contains(s: string, sub: string)
    ensures Contains(s, sub) ==> |sub| <= |s|
    ensures sub == [] ==> Contains(s, sub)
    decreases |s|
  {
    HasPrefix(s, sub) || (|s| > 0 && Contains(s[1..], sub))
  }

  /** `sub` occurs in `s` starting at position `i`. */
  predicate OccursAt(s: string, sub: string, i: nat) {
    i + |sub| <= |s| && s[i..i + |sub|] == sub
  }

  /** A string that contains `sub` has an occurrence of it at some position. */
  lemma {:induction false} ContainsWitness(s: string, sub: string) returns (i: nat)
    requires Contains(s, sub)
    ensures i <= |s| && OccursAt(s, sub, i)
    decreases |s|
  {
    if HasPrefix(s, sub) {
      i := 0;
    } else {
      var j := ContainsWitness(s[1..], sub);
      assert s[j + 1..j + 1 + |sub|] == s[1..][j..j + |sub|];
      i := j + 1;
    }
  }

  /** An occurrence at any position makes `Contains` hold. */
  lemma {:induction false} OccurrenceContained(s: string, sub: string, i: nat)
    requires OccursAt(s, sub, i)
    ensures Contains(s, sub)
    decreases i
  {
    if i == 0 {
      assert HasPrefix(s, sub);
    } else {
      assert s[1..][i - 1..i - 1 + |sub|] == s[i..i + |sub|];
      OccurrenceContained(s[1..], sub, i - 1);
    }
  }

  /** `Contains` holds exactly when `sub` occurs in `s` at some position. */
  lemma ContainsOccurs(s: string, sub: string)
    ensures Contains(s, sub) <==> exists i: nat :: i <= |s| && OccursAt(s, sub, i)
  {
    if Contains(s, sub) {
      var i := ContainsWitness(s, sub);
    }
    if exists i: nat :: i <= |s| && OccursAt(s, sub, i) {
      var i: nat :| i <= |s| && OccursAt(s, sub, i);
      OccurrenceContained(s, sub, i);
    }
  }

  /** `strings.Split` with a one-character separator. */
  function Split(s: string, sep: char): (parts: seq<string>)
    ensures |parts| >= 1
    ensures forall i :: 0 <= i < |parts| ==> sep !in parts[i]
    ensures |parts| == 1 <==> sep !in s
    decreases |s|
  {
    var i := IndexOf(s, sep);
    if i < 0 then [s] else [s[..i]] + Split(s[i + 1..], sep)
  }

  /** `strings.Join` with a one-character separator. */
  function Join(parts: seq<string>, sep: char): string
    decreases |parts|
  {
    if |parts| == 0 then ""
    else if |parts| == 1 then parts[0]
    else parts[0] + [sep] + Join(parts[1..], sep)
  }

  /** The first occurrence of a character that is absent from a prefix lies right after it. */
  lemma IndexOfAfter(a: string, c: char, b: string)
    requires c !in a
    ensures IndexOf(a + [c] + b, c) == |a|
  {
    var s := a + [c] + b;
    assert s[|a|] == c;
    assert forall j :: 0 <= j < |a| ==> s[j] == a[j];
  }

  /** The last occurrence of a character that is absent from a suffix lies right before it. */
  lemma LastIndexOfBefore(a: string, c: char, b: string)
    requires c !in b
    ensures LastIndexOf(a + [c] + b, c) == |a|
  {
    var s := a + [c] + b;
    assert s[|a|] == c;
    assert forall j :: |a| < j < |s| ==> s[j] == b[j - |a| - 1];
    LastIndexOfIsLast(s, c, |a|);
  }

  /** A position holding `c` with no `c` after it is the last position of `c`. */
  lemma LastIndexOfIsLast(s: string, c: char, i: int)
    requires 0 <= i < |s| && s[i] == c
    requires forall j :: i < j < |s| ==> s[j] != c
    ensures LastIndexOf(s, c) == i
  {
  }

  /** The first occurrence inside a prefix is the first occurrence overall. */
  lemma IndexOfInPrefix(a: string, c: char, b: string)
    requires c in a
    ensures IndexOf(a + b, c) == IndexOf(a, c)
  {
    var s := a + b;
    assert forall j :: 0 <= j < |a| ==> s[j] == a[j];
  }

  /** Joining the parts of a split gives back the original string. */
  lemma {:induction false} JoinSplit(s: string, sep: char)
    ensures Join(Split(s, sep), sep) == s
    decreases |s|
  {
    var i := IndexOf(s, sep);
    if i >= 0 {
      var rest := s[i + 1..];
      var tail := Split(rest, sep);
      var parts := [s[..i]] + tail;
      assert Split(s, sep) == parts;
      assert |parts| > 1 && parts[0] == s[..i] && parts[1..] == tail;
      JoinSplit(rest, sep);
      assert Join(parts, sep) == s[..i] + [sep] + rest;
      Reassemble(s, i);
    }
  }

  /** Splitting a join of separator-free parts gives back the parts. */
  lemma {:induction false} SplitJoin(parts: seq<string>, sep: char)
    requires |parts| >= 1
    requires forall i :: 0 <= i < |parts| ==> sep !in parts[i]
    ensures Split(Join(parts, sep), sep) == parts
    decreases |parts|
  {
    if |parts| > 1 {
      var tail := Join(parts[1..], sep);
      var s := parts[0] + [sep] + tail;
      assert Join(parts, sep) == s;
      IndexOfAfter(parts[0], sep, tail);
      assert s[..|parts[0]|] == parts[0];
      assert s[|parts[0]| + 1..] == tail;
      assert Split(s, sep) == [parts[0]] + Split(tail, sep);
      SplitJoin(parts[1..], sep);
      assert parts == [parts[0]] + parts[1..];
    }
  }

  /** A final separator-free segment becomes the last part of the split. */
  lemma {:induction false} SplitSnoc(a: string, sep: char, b: string)
    requires sep !in b
    ensures Split(a + [sep] + b, sep) == Split(a, sep) + [b]
    decreases |a|
  {
    var s := a + [sep] + b;
    if sep !in a {
      IndexOfAfter(a, sep, b);
      assert s[..|a|] == a;
      assert s[|a| + 1..] == b;
      assert Split(s, sep) == [a] + Split(b, sep);
    } else {
      var i := IndexOf(a, sep);
      IndexOfInPrefix(a, sep, [sep] + b);
      assert s == a + ([sep] + b);
      assert s[..i] == a[..i];
      assert s[i + 1..] == a[i + 1..] + [sep] + b;
      assert Split(s, sep) == [a[..i]] + Split(a[i + 1..] + [sep] + b, sep);
      SplitSnoc(a[i + 1..], sep, b);
      assert Split(a, sep) == [a[..i]] + Split(a[i + 1..], sep);
    }
  }

  /** A string is the text before position `i`, the character at `i`, and the text after it. */
  lemma Reassemble(s: string, i: int)
    requires 0 <= i < |s|
    ensures s == s[..i] + [s[i]] + s[i + 1..]
  {
  }
}

=== FILE: outcomes.dfy ===
/** Failure-carrying values shared by the whole model. */
module Outcomes {

  /** A value that may be absent: Go's `(value, ok)` pairs and nil results. */
  datatype Option<T> = None | Some(value: T)

  /** A value or the error that replaced it: Go's `(value, err)` pairs. */
  datatype Result<T, E> = Ok(value: T) | Err(error: E)
}

=== FILE: repo.dfy ===
/** The git side of the tool: commits, version tags, and first-parent history. */
module Repo {
  import opened Outcomes

  /** A commit: its hash, its full message, and its parents' hashes (the first is the mainline). */
  datatype Commit = Commit(hash: string, message: string, parents: seq<string>)

  /** A version tag. An annotated tag goes through a tag object; a lightweight one names the commit itself. */
  datatype Tag = Tag(annotated: bool, target: Commit)

  /** `commit.Parent(0)`: fails when the commit has no parent or the parent object cannot be read. */
  function FirstParent(objects: map<string, Commit>, c: Commit): (r: Option<Commit>)
    ensures r.None? <==> c.parents == [] || c.parents[0] !in objects
    ensures r.Some? ==> r.value in objects.Values && r.value == objects[c.parents[0]]
  {
    if |c.parents| > 0 && c.parents[0] in objects then Some(objects[c.parents[0]]) else None
  }

  /** The commit `k` first-parent steps behind `c`, if the walk gets that far. */
  function FirstParentAt(objects: map<string, Commit>, c: Commit, k: nat): (r: Option<Commit>)
    ensures k == 0 ==> r == Some(c)
    decreases k
  {
    if k == 0 then Some(c)
    else match FirstParent(objects, c)
      case None => None
      case Some(p) => FirstParentAt(objects, p, k - 1)
  }

  /** One more step of the walk is the first parent of the commit the walk has reached. */
  lemma {:induction false} FirstParentAtNext(objects: map<string, Commit>, c: Commit, k: nat)
    requires FirstParentAt(objects, c, k).Some?
    ensures FirstParentAt(objects, c, k + 1) == FirstParent(objects, FirstParentAt(objects, c, k).value)
    decreases k
  {
    if k > 0 {
      var p := FirstParent(objects, c);
      FirstParentAtNext(objects, p.value, k - 1);
    }
  }

  /** A first-parent walk that reaches depth `j` passed through every smaller depth. */
  lemma {:induction false} FirstParentAtShallower(objects: map<string, Commit>, c: Commit, i: nat, j: nat)
    requires i <= j
    requires FirstParentAt(objects, c, j).Some?
    ensures FirstParentAt(objects, c, i).Some?
    decreases i
  {
    if i > 0 {
      var p := FirstParent(objects, c);
      assert p.Some?;
      FirstParentAtShallower(objects, p.value, i - 1, j - 1);
    }
  }
}

=== FILE: seqs.dfy ===
/** Searches and filters over sequences, the shape of every `ForEach` loop in the tool. */
module Seqs {

  /** The position of the first element satisfying `p`, or `|s|` when there is none. */
  function FirstIndex<T>(s: seq<T>, p: T -> bool): (i: nat)
    ensures i <= |s|
    ensures i < |s| ==> p(s[i])
    ensures forall j :: 0 <= j < i ==> !p(s[j])
    decreases |s|
  {
    if |s| == 0 then 0
    else if p(s[0]) then 0
    else 1 + FirstIndex(s[1..], p)
  }

  /** The elements satisfying `p`, in their original order. */
  function Filter<T>(s: seq<T>, p: T -> bool): (r: seq<T>)
    ensures |r| <= |s|
    ensures forall k :: 0 <= k < |r| ==> p(r[k]) && r[k] in s
    ensures forall j :: 0 <= j < |s| && p(s[j]) ==> s[j] in r
    decreases |s|
  {
    if |s| == 0 then []
    else if p(s[0]) then [s[0]] + Filter(s[1..], p)
    else Filter(s[1..], p)
  }

  /** Filtering distributes over concatenation. */
  lemma {:induction false} FilterAppend<T>(a: seq<T>, b: seq<T>, p: T -> bool)
    ensures Filter(a + b, p) == Filter(a, p) + Filter(b, p)
    decreases |a|
  {
    if |a| > 0 {
      assert (a + b)[1..] == a[1..] + b;
      FilterAppend(a[1..], b, p);
    } else {
      assert a + b == b;
    }
  }
}

=== FILE: show.dfy ===
/**
 The `show` command: from a version argument `X.Y.Z`, find where the release
 branch `vX.Y` diverged from master, collect the messages committed on the
 release branch since then, and list the master commits since the divergence
 that have no counterpart on the release branch.
 */
module Show {
  import opened Outcomes
  import opened GoStrings
  import opened GoStrconv
  import opened Seqs
  import opened Repo
  import opened GitHub
  import opened Utils

  /** The most first-parent steps the divergence search takes back from the tagged commit. */
  const MaxRetries: nat := 10

  datatype ShowError =
    | VersionRequired
    | InvalidVersion(arg: string)
    | NoSuchTag(name: string)
    | NoParent(hash: string)
    | NoEqualCommits(branch: string)
    | NoSuchBranch(branch: string)
    | PullRequestLookupFailed(hash: string)
    | NotOnePullRequest(hash: string)

  /*
   * The version argument
   */

  /** The release branch `vX.Y` and the tag `vX.Y.0` of its first release. */
  datatype ReleaseNames = ReleaseNames(branch: string, initialTag: string)

  /** Validates `--version` and derives the release branch and the initial tag from its first two parts. */
  function ReleaseNamesOf(versionArg: string): (r: Result<ReleaseNames, ShowError>)
    ensures r == Err(VersionRequired) <==> versionArg == []
    ensures r == Err(InvalidVersion(versionArg)) <==> versionArg != [] && |Split(versionArg, '.')| != 3
    ensures r.Ok? ==> r.value.branch + ".0" == r.value.initialTag
    ensures r.Ok? ==> HasPrefix(r.value.branch, "v")
  {
    if versionArg == [] then Err(VersionRequired)
    else
      var parts := Split(versionArg, '.');
      if |parts| != 3 then Err(InvalidVersion(versionArg))
      else
        var branch := "v" + parts[0] + "." + parts[1];
        assert branch[..1] == "v";
        Ok(ReleaseNames(branch, branch + ".0"))
  }

  /** A dotted triple `X.Y.Z` is accepted and names branch `vX.Y` and tag `vX.Y.0`. */
  lemma ReleaseNamesOfTriple(major: string, minor: string, patch: string)
    requires '.' !in major && '.' !in minor && '.' !in patch
    ensures ReleaseNamesOf(major + "." + minor + "." + patch)
      == Ok(ReleaseNames("v" + major + "." + minor, "v" + major + "." + minor + ".0"))
  {
    var parts := [major, minor, patch];
    assert Join(parts, '.') == major + "." + minor + "." + patch by {
      assert Join(parts[2..], '.') == patch;
      assert Join(parts[1..], '.') == minor + "." + patch;
    }
    SplitJoin(parts, '.');
  }

  /** Every accepted argument is a dotted triple whose first two parts name the branch. */
  lemma AcceptedArgumentIsTriple(versionArg: string)
    requires ReleaseNamesOf(versionArg).Ok?
    ensures var p := Split(versionArg, '.');
      |p| == 3 && versionArg == p[0] + "." + p[1] + "." + p[2]
      && ReleaseNamesOf(versionArg).value.branch == "v" + p[0] + "." + p[1]
  {
    var p := Split(versionArg, '.');
    assert |p| == 3;
    JoinSplit(versionArg, '.');
    JoinOfThree(p, '.');
  }

  /** Joining three parts puts a separator between each adjacent pair. */
  lemma JoinOfThree(p: seq<string>, sep: char)
    requires |p| == 3
    ensures Join(p, sep) == p[0] + [sep] + p[1] + [sep] + p[2]
  {
    assert Join(p[2..], sep) == p[2];
    assert Join(p[1..], sep) == p[1] + [sep] + Join(p[1..][1..], sep);
    assert p[1..][1..] == p[2..];
  }

  /*
   * The divergence search
   */

  /**
   `hasEqualCommitInRepo`: the position of the first commit of the master log
   whose full message equals that of `c`.
   */
  function FindEqualMessage(masterLog: seq<Commit>, c: Commit): (r: Option<nat>)
    ensures r.None? ==> forall i :: 0 <= i < |masterLog| ==> masterLog[i].message != c.message
    ensures r.Some? ==> r.value < |masterLog| && masterLog[r.value].message == c.message
    ensures r.Some? ==> forall j :: 0 <= j < r.value ==> masterLog[j].message != c.message
  {
    var i := FirstIndex(masterLog, (d: Commit) => d.message == c.message);
    if i < |masterLog| then Some(i) else None
  }

  /** The walk from `start` reaches depth `j`, and the commit there has no equal-message counterpart on master. */
  predicate Unmatched(objects: map<string, Commit>, masterLog: seq<Commit>, start: Commit, j: nat) {
    var a := FirstParentAt(objects, start, j);
    a.Some? && FindEqualMessage(masterLog, a.value).None?
  }

  /** The walk from `start` reaches depth `j`, and the commit there has a counterpart on master. */
  predicate Matched(objects: map<string, Commit>, masterLog: seq<Commit>, start: Commit, j: nat) {
    var a := FirstParentAt(objects, start, j);
    a.Some? && FindEqualMessage(masterLog, a.value).Some?
  }

  /**
   How the search ended: the release-side commit, its master counterpart and
   its depth; a commit (at a depth) whose first parent cannot be read; or the
   retry bound exceeded.
   */
  datatype Divergence =
    | Diverged(commit: Commit, counterpart: Commit, depth: nat)
    | ParentMissing(hash: string, depth: nat)
    | RetriesExhausted

  /**
   The retry loop of `show`, entered at the commit `depth` first-parent steps
   back from `start` (the number of steps `tryTimes` has counted): test it;
   on no match read its first parent, count the step, and give up once more
   than `MaxRetries` steps were taken.
   */
  function DivergeFrom(objects: map<string, Commit>, masterLog: seq<Commit>, start: Commit, depth: nat): (r: Divergence)
    requires depth <= MaxRetries && FirstParentAt(objects, start, depth).Some?
    ensures r.Diverged? ==>
      && depth <= r.depth <= MaxRetries
      && FirstParentAt(objects, start, r.depth) == Some(r.commit)
      && FindEqualMessage(masterLog, r.commit).Some?
      && r.counterpart == masterLog[FindEqualMessage(masterLog, r.commit).value]
    ensures r.ParentMissing? ==>
      && depth <= r.depth <= MaxRetries
      && FirstParentAt(objects, start, r.depth).Some?
      && FirstParentAt(objects, start, r.depth).value.hash == r.hash
      && FirstParentAt(objects, start, r.depth + 1).None?
    ensures r.RetriesExhausted? ==> FirstParentAt(objects, start, MaxRetries + 1).Some?
    decreases MaxRetries - depth
  {
    var c := FirstParentAt(objects, start, depth).value;
    match FindEqualMessage(masterLog, c)
    case Some(i) => Diverged(c, masterLog[i], depth)
    case None =>
      FirstParentAtNext(objects, start, depth);
      match FirstParent(objects, c)
      case None => ParentMissing(c.hash, depth)
      case Some(_) =>
        if depth + 1 > MaxRetries then RetriesExhausted
        else DivergeFrom(objects, masterLog, start, depth + 1)
  }

  /** The depth below which the search examined and passed over every commit (inclusive of a commit without a parent). */
  function PassedDepth(r: Divergence): int {
    match r
    case Diverged(_, _, d) => d - 1
    case ParentMissing(_, d) => d
    case RetriesExhausted => MaxRetries
  }

  /** Every commit the search stepped past on its way has no counterpart on master. */
  lemma {:induction false} DivergeFromPassesUnmatched(
    objects: map<string, Commit>, masterLog: seq<Commit>, start: Commit, depth: nat, j: nat)
    requires depth <= MaxRetries && FirstParentAt(objects, start, depth).Some?
    requires depth <= j <= PassedDepth(DivergeFrom(objects, masterLog, start, depth))
    ensures Unmatched(objects, masterLog, start, j)
    decreases MaxRetries - depth
  {
    var c := FirstParentAt(objects, start, depth).value;
    if FindEqualMessage(masterLog, c).None? {
      if j > depth {
        FirstParentAtNext(objects, start, depth);
        DivergeFromPassesUnmatched(objects, masterLog, start, depth + 1, j);
      }
    }
  }

  /** Every commit the search stepped past, from depth `depth` on, has no counterpart on master. */
  lemma DivergeFromPassesAllUnmatched(objects: map<string, Commit>, masterLog: seq<Commit>, start: Commit, depth: nat)
    requires depth <= MaxRetries && FirstParentAt(objects, start, depth).Some?
    ensures forall j :: depth <= j <= PassedDepth(DivergeFrom(objects, masterLog, start, depth)) ==>
      Unmatched(objects, masterLog, start, j)
  {
    forall j | depth <= j <= PassedDepth(DivergeFrom(objects, masterLog, start, depth))
      ensures Unmatched(objects, masterLog, start, j)
    {
      DivergeFromPassesUnmatched(objects, masterLog, start, depth, j);
    }
  }

  /**
   The search from the commit the initial tag points to: the first commit on
   the first-parent walk (at most `MaxRetries` steps back) whose message some
   master commit repeats, paired with the first such master commit; or the
   commit whose parent cannot be read; or, when none of the `MaxRetries + 1`
   commits matches, exhaustion. Every commit stepped past has no counterpart.
   */
  function Diverge(objects: map<string, Commit>, masterLog: seq<Commit>, start: Commit): (r: Divergence)
    ensures r.Diverged? ==>
      && r.depth <= MaxRetries
      && FirstParentAt(objects, start, r.depth) == Some(r.commit)
      && FindEqualMessage(masterLog, r.commit).Some?
      && r.counterpart == masterLog[FindEqualMessage(masterLog, r.commit).value]
      && r.counterpart in masterLog && r.counterpart.message == r.commit.message
    ensures r.ParentMissing? ==>
      && r.depth <= MaxRetries
      && FirstParentAt(objects, start, r.depth).Some?
      && FirstParentAt(objects, start, r.depth).value.hash == r.hash
      && FirstParentAt(objects, start, r.depth + 1).None?
    ensures r.RetriesExhausted? ==> FirstParentAt(objects, start, MaxRetries + 1).Some?
    ensures forall j :: 0 <= j <= PassedDepth(r) ==> Unmatched(objects, masterLog, start, j)
  {
    DivergeFromPassesAllUnmatched(objects, masterLog, start, 0);
    DivergeFrom(objects, masterLog, start, 0)
  }

  /**
   The search from the tagged commit finds the nearest first-parent ancestor
   (at most `MaxRetries` steps back) that has a counterpart on master.
   */
  lemma {:induction false} DivergenceIsNearest(objects: map<string, Commit>, masterLog: seq<Commit>, start: Commit, k: nat)
    requires k <= MaxRetries && Matched(objects, masterLog, start, k)
    ensures Diverge(objects, masterLog, start).Diverged?
    ensures Diverge(objects, masterLog, start).depth <= k
  {
    var r := Diverge(objects, masterLog, start);
    if !r.Diverged? || r.depth > k {
      if r.ParentMissing? && r.depth < k {
        FirstParentAtShallower(objects, start, r.depth + 1, k);
        assert false;
      }
      DivergeFromPassesUnmatched(objects, masterLog, start, 0, k);
      assert false;
    }
  }

  /** When the tagged commit itself has a counterpart on master, the search stops there. */
  lemma DivergenceAtTag(objects: map<string, Commit>, masterLog: seq<Commit>, start: Commit)
    requires FindEqualMessage(masterLog, start).Some?
    ensures Diverge(objects, masterLog, start) == Diverged(start, masterLog[FindEqualMessage(masterLog, start).value], 0)
  {
  }

  /*
   * The release branch scan
   */

  /**
   The map of messages built from the release-branch log: every commit's
   message from the tip until the first commit that `reached` (the divergence
   commit or one of its ancestors), which stops the scan. Only membership is
   ever consulted, so a set stands for the map.
   */
  function ReleasedMessages(releaseLog: seq<Commit>, reached: Commit -> bool): (r: set<string>)
    ensures forall i :: 0 <= i < FirstIndex(releaseLog, reached) ==> releaseLog[i].message in r
    ensures forall m :: m in r ==> exists i :: 0 <= i < FirstIndex(releaseLog, reached) && releaseLog[i].message == m
    decreases |releaseLog|
  {
    if |releaseLog| == 0 || reached(releaseLog[0]) then {}
    else
      var rest := ReleasedMessages(releaseLog[1..], reached);
      assert forall i :: 1 <= i < |releaseLog| ==> releaseLog[i] == releaseLog[1..][i - 1];
      {releaseLog[0].message} + rest
  }

  /*
   * The master scan
   */

  /**
   The master scan of `show`, without the GitHub lookups: skip every commit
   whose message is on the release branch; stop at the first other commit
   that is `behind` the master counterpart (an ancestor of it or equal to it);
   report the rest in log order.
   */
  function UnreleasedCommits(masterLog: seq<Commit>, released: set<string>, behind: Commit -> bool): (r: seq<Commit>)
    ensures |r| <= |masterLog|
    ensures forall k :: 0 <= k < |r| ==> r[k].message !in released && !behind(r[k])
    ensures forall k :: 0 <= k < |r| ==> r[k] in masterLog
    decreases |masterLog|
  {
    if |masterLog| == 0 then []
    else if masterLog[0].message in released then UnreleasedCommits(masterLog[1..], released, behind)
    else if behind(masterLog[0]) then []
    else [masterLog[0]] + UnreleasedCommits(masterLog[1..], released, behind)
  }

  /**
   The reported commits are, in master order, exactly the commits without a
   release-branch counterpart that come before the first such commit that is
   behind the counterpart; commits with a counterpart never stop the scan.
   */
  lemma {:induction false} UnreleasedIsFilteredPrefix(masterLog: seq<Commit>, released: set<string>, behind: Commit -> bool)
    ensures var stop := FirstIndex(masterLog, (c: Commit) => c.message !in released && behind(c));
      UnreleasedCommits(masterLog, released, behind)
      == Filter(masterLog[..stop], (c: Commit) => c.message !in released)
    decreases |masterLog|
  {
    var stop := FirstIndex(masterLog, (c: Commit) => c.message !in released && behind(c));
    if |masterLog| > 0 {
      var tail := masterLog[1..];
      UnreleasedIsFilteredPrefix(tail, released, behind);
      if masterLog[0].message in released || !behind(masterLog[0]) {
        var stop' := FirstIndex(tail, (c: Commit) => c.message !in released && behind(c));
        assert stop == 1 + stop';
        assert masterLog[..stop][1..] == tail[..stop'];
      }
    }
  }

  /** A listed row: the commit, the `owner/repo#N` reference of its pull request, and the pull request's title. */
  datatype ShowRow = ShowRow(commit: Commit, reference: string, title: string)

  /**
   The reference column as show.go builds it: from the pull request's `id`,
   GitHub's internal identifier, instead of its number.
   */
  function RowReferenceAsWritten(owner: string, repo: string, pr: PullRequest): (r: string)
    ensures HasPrefix(r, owner + "/" + repo + "#")
  {
    PrName(owner, repo, pr.id)
  }

  /** When the identifier and the number differ, the reference names a pull request other than the commit's. */
  lemma RowReferenceNamesIdentifier(owner: string, repo: string, pr: PullRequest)
    requires InIntRange(pr.id) && pr.id != pr.number
    ensures var name := RowReferenceAsWritten(owner, repo, pr);
      Atoi(name[LastIndexOf(name, '#') + 1..]) != Some(pr.number)
  {
    PrNameRoundTrip(owner, repo, pr.id);
  }

  /** The reference column as intended: `owner/repo#N` with the pull request's number. */
  function RowReference(owner: string, repo: string, pr: PullRequest): (r: string)
    ensures HasPrefix(r, owner + "/" + repo + "#")
  {
    PrName(owner, repo, pr.number)
  }

  /** The intended reference reads back as the pull request's number. */
  lemma RowReferenceNamesNumber(owner: string, repo: string, pr: PullRequest)
    requires InIntRange(pr.number)
    ensures var name := RowReference(owner, repo, pr);
      var k := LastIndexOf(name, '#');
      0 <= k && name[..k] == owner + "/" + repo && Atoi(name[k + 1..]) == Some(pr.number)
  {
    PrNameRoundTrip(owner, repo, pr.number);
  }

  /** GitHub associates exactly one pull request with the commit. */
  predicate SinglePullRequest(lookup: string -> Option<seq<PullRequest>>, c: Commit) {
    lookup(c.hash).Some? && |lookup(c.hash).value| == 1
  }

  /** The row of a reported commit, with the reference column as show.go builds it (from the identifier). */
  function RowOf(owner: string, repo: string, lookup: string -> Option<seq<PullRequest>>, c: Commit): ShowRow
    requires SinglePullRequest(lookup, c)
  {
    var pr := lookup(c.hash).value[0];
    ShowRow(c, RowReferenceAsWritten(owner, repo, pr), pr.title)
  }

  /** The error of a commit whose lookup fails or does not give exactly one pull request. */
  function LookupError(lookup: string -> Option<seq<PullRequest>>, c: Commit): ShowError {
    if lookup(c.hash).None? then PullRequestLookupFailed(c.hash) else NotOnePullRequest(c.hash)
  }

  /** The position of the first commit whose lookup fails or does not give exactly one pull request; `|commits|` when there is none. */
  function FirstUnlisted(commits: seq<Commit>, lookup: string -> Option<seq<PullRequest>>): (r: nat)
    ensures r <= |commits|
    ensures forall j :: 0 <= j < r ==> SinglePullRequest(lookup, commits[j])
    ensures r < |commits| ==> !SinglePullRequest(lookup, commits[r])
    decreases |commits|
  {
    if |commits| == 0 || !SinglePullRequest(lookup, commits[0]) then 0
    else
      assert forall k :: 1 <= k < |commits| ==> commits[k] == commits[1..][k - 1];
      1 + FirstUnlisted(commits[1..], lookup)
  }

  /**
   The GitHub lookups of the master scan, over the commits it reports: the
   row of every commit, or the error of the first commit whose lookup fails
   or does not give exactly one pull request.
   */
  function RowsOf(commits: seq<Commit>, lookup: string -> Option<seq<PullRequest>>, owner: string, repo: string)
    : (r: Result<seq<ShowRow>, ShowError>)
    ensures r.Ok? <==> FirstUnlisted(commits, lookup) == |commits|
    ensures r.Ok? ==> |r.value| == |commits|
    ensures r.Ok? ==> forall k :: 0 <= k < |commits| ==> r.value[k] == RowOf(owner, repo, lookup, commits[k])
    ensures r.Err? ==> r.error == LookupError(lookup, commits[FirstUnlisted(commits, lookup)])
    decreases |commits|
  {
    if |commits| == 0 then Ok([])
    else
      var c := commits[0];
      if !SinglePullRequest(lookup, c) then Err(LookupError(lookup, c))
      else
        assert forall k :: 1 <= k < |commits| ==> commits[k] == commits[1..][k - 1];
        match RowsOf(commits[1..], lookup, owner, repo)
        case Err(e) => Err(e)
        case Ok(rows) => Ok([RowOf(owner, repo, lookup, c)] + rows)
  }

  /**
   The master scan with its GitHub lookups (`lookup` maps a commit hash to the
   pull requests GitHub associates with it, or fails). The scan itself reads
   nothing from GitHub, so doing the lookups after it gives the same rows and
   the same first error as interleaving them.
   */
  function ListUnreleased(
    masterLog: seq<Commit>, released: set<string>, behind: Commit -> bool,
    lookup: string -> Option<seq<PullRequest>>, owner: string, repo: string): (r: Result<seq<ShowRow>, ShowError>)
    ensures r.Ok? ==> forall k :: 0 <= k < |UnreleasedCommits(masterLog, released, behind)| ==>
      SinglePullRequest(lookup, UnreleasedCommits(masterLog, released, behind)[k])
    ensures r.Err? ==> exists k ::
      && 0 <= k < |UnreleasedCommits(masterLog, released, behind)|
      && !SinglePullRequest(lookup, UnreleasedCommits(masterLog, released, behind)[k])
    ensures r.Err? ==> r.error.PullRequestLookupFailed? || r.error.NotOnePullRequest?
    // The failure is that of the first reported commit without a single pull request.
    ensures r.Ok? <==> FirstUnlisted(UnreleasedCommits(masterLog, released, behind), lookup) == |UnreleasedCommits(masterLog, released, behind)|
    ensures r.Err? ==>
      var commits := UnreleasedCommits(masterLog, released, behind);
      r.error == LookupError(lookup, commits[FirstUnlisted(commits, lookup)])
    ensures r.Ok? ==> forall k :: 0 <= k < |r.value| ==>
      && r.value[k].commit.message !in released && !behind(r.value[k].commit)
      && SinglePullRequest(lookup, r.value[k].commit)
      && r.value[k] == RowOf(owner, repo, lookup, r.value[k].commit)
    ensures r.Ok? ==>
      && |r.value| == |UnreleasedCommits(masterLog, released, behind)|
      && forall k :: 0 <= k < |r.value| ==> r.value[k].commit == UnreleasedCommits(masterLog, released, behind)[k]
  {
    RowsOf(UnreleasedCommits(masterLog, released, behind), lookup, owner, repo)
  }

  /*
   * The whole command
   */

  /** The parts of the repository `show` reads. */
  datatype Repository = Repository(
    tags: map<string, Tag>,
    objects: map<string, Commit>,
    masterLog: seq<Commit>,
    masterByTime: seq<Commit>,
    branchLogs: map<string, seq<Commit>>,
    originUrl: string)

  /**
   What `show` ends with: the divergence pair, the release-branch messages and
   the listed rows; a fatal error; or a Go runtime panic.
   */
  datatype ShowOutcome =
    | Listed(divergence: Commit, counterpart: Commit, released: set<string>, rows: seq<ShowRow>)
    | ShowFailed(error: ShowError)
    | ShowPanicked

  /** `c` is an ancestor of `d` or `d` itself, by go-git's test. */
  function AncestorOf(isAncestor: (Commit, Commit) -> bool, d: Commit): Commit -> bool {
    (c: Commit) => isAncestor(c, d)
  }

  /** The search of `show` for the release named by an accepted version argument, from its initial tag. */
  function DivergeAtTag(versionArg: string, repo: Repository): Divergence
    requires ReleaseNamesOf(versionArg).Ok? && ReleaseNamesOf(versionArg).value.initialTag in repo.tags
  {
    Diverge(repo.objects, repo.masterByTime, repo.tags[ReleaseNamesOf(versionArg).value.initialTag].target)
  }

  /**
   The `show` command. `masterLog` is the default-order log of master,
   `masterByTime` its committer-time-order log (the one `hasEqualCommitInRepo`
   walks), `branchLogs` the logs of the release branches, `isAncestor(a, b)`
   go-git's `a.IsAncestor(b)` (true also when `a` is `b`), and `lookup` the
   pull requests GitHub lists for a commit hash. The initial tag must be an
   annotated tag: for a lightweight one `TagObject` fails, its error is
   dropped, and the nil tag object is dereferenced.
   */
  function Show(
    versionArg: string, repo: Repository, isAncestor: (Commit, Commit) -> bool,
    lookup: string -> Option<seq<PullRequest>>): (r: ShowOutcome)
    ensures r == ShowFailed(VersionRequired) <==> versionArg == []
    ensures r == ShowFailed(InvalidVersion(versionArg)) <==> versionArg != [] && |Split(versionArg, '.')| != 3
    ensures r.Listed? ==>
      && ReleaseNamesOf(versionArg).Ok?
      && ReleaseNamesOf(versionArg).value.initialTag in repo.tags
      && repo.tags[ReleaseNamesOf(versionArg).value.initialTag].annotated
    ensures r.Listed? ==> r.divergence.message == r.counterpart.message && r.counterpart in repo.masterByTime
    ensures r.Listed? ==>
      && DivergeAtTag(versionArg, repo).Diverged?
      && DivergeAtTag(versionArg, repo).commit == r.divergence
      && DivergeAtTag(versionArg, repo).counterpart == r.counterpart
      && ReleaseNamesOf(versionArg).value.branch in repo.branchLogs
      && r.released == ReleasedMessages(repo.branchLogs[ReleaseNamesOf(versionArg).value.branch], AncestorOf(isAncestor, r.divergence))
      && '/' in repo.originUrl
    ensures r.Listed? ==> forall k :: 0 <= k < |r.rows| ==>
      r.rows[k].commit.message !in r.released && !isAncestor(r.rows[k].commit, r.counterpart)
    ensures r.Listed? ==>
      var commits := UnreleasedCommits(repo.masterLog, r.released, AncestorOf(isAncestor, r.counterpart));
      |r.rows| == |commits| && forall k :: 0 <= k < |commits| ==> r.rows[k].commit == commits[k]
    // Each row holds the reference and title built from the commit's single pull request.
    ensures r.Listed? ==> '/' in repo.originUrl && forall k :: 0 <= k < |r.rows| ==>
      && SinglePullRequest(lookup, r.rows[k].commit)
      && r.rows[k] == RowOf(OwnerAndRepo(repo.originUrl).0, OwnerAndRepo(repo.originUrl).1, lookup, r.rows[k].commit)
    ensures r == ShowPanicked <==>
      && ReleaseNamesOf(versionArg).Ok?
      && ReleaseNamesOf(versionArg).value.initialTag in repo.tags
      && (|| !repo.tags[ReleaseNamesOf(versionArg).value.initialTag].annotated
          || (&& DivergeAtTag(versionArg, repo).Diverged?
              && ReleaseNamesOf(versionArg).value.branch in repo.branchLogs
              && '/' !in repo.originUrl))
  {
    match ReleaseNamesOf(versionArg)
    case Err(e) => ShowFailed(e)
    case Ok(names) =>
      if names.initialTag !in repo.tags then ShowFailed(NoSuchTag(names.initialTag))
      else
        var tag := repo.tags[names.initialTag];
        if !tag.annotated then ShowPanicked
        else
          match Diverge(repo.objects, repo.masterByTime, tag.target)
          case ParentMissing(h, _) => ShowFailed(NoParent(h))
          case RetriesExhausted => ShowFailed(NoEqualCommits(names.branch))
          case Diverged(d, cp, _) =>
            if names.branch !in repo.branchLogs then ShowFailed(NoSuchBranch(names.branch))
            else
              var released := ReleasedMessages(repo.branchLogs[names.branch], AncestorOf(isAncestor, d));
              if '/' !in repo.originUrl then ShowPanicked
              else
                var (owner, name) := OwnerAndRepo(repo.originUrl);
                match ListUnreleased(repo.masterLog, released, AncestorOf(isAncestor, cp), lookup, owner, name)
                case Err(e) => ShowFailed(e)
                case Ok(rows) => Listed(d, cp, released, rows)
  }
}

=== FILE: submit.dfy ===
/**
 The `submit` command: check that the latest version is a stable release,
 find the previous stable release, collect the pull-request numbers of the
 commits picked since then, make sure the version's label exists on GitHub,
 and put it on every pull request that has no label of the release branch.
 */
module Submit {
  import opened Outcomes
  import opened GoStrings
  import opened GoStrconv
  import opened Seqs
  import opened GitHub
  import opened Utils

  /** A version tag as the version library reports it: its name and its prerelease part (empty for a stable release). */
  datatype Version = Version(name: string, prerelease: string)

  datatype SubmitError =
    | InvalidLatest(latest: string)
    | StillPrerelease(latest: string)
    | LabelLookupFailed(status: int)
    | LabelCreateFailed(name: string)
    | PullRequestFetchFailed(pr: int)
    | AddLabelFailed(pr: int)

  /*
   * The previous release
   */

  /**
   `pastReleasedVer`: in the version list sorted from newest to oldest, the
   first stable version after the head. Go slices `versions[1:]`, so the list
   must not be empty.
   */
  function PastReleasedIndex(versions: seq<Version>): (r: Option<nat>)
    requires |versions| >= 1
    ensures r.None? <==> forall j :: 1 <= j < |versions| ==> versions[j].prerelease != ""
    ensures r.Some? ==> 1 <= r.value < |versions| && versions[r.value].prerelease == ""
    ensures r.Some? ==> forall j :: 1 <= j < r.value ==> versions[j].prerelease != ""
  {
    var tail := versions[1..];
    var i := FirstIndex(tail, (v: Version) => v.prerelease == "");
    assert forall j :: 1 <= j < |versions| ==> versions[j] == tail[j - 1];
    if i < |tail| then Some(i + 1) else None
  }

  /** A stable version at position `i` with only prereleases between it and the head is the one chosen. */
  lemma PastReleasedIsUnique(versions: seq<Version>, i: nat)
    requires 1 <= i < |versions| && versions[i].prerelease == ""
    requires forall j :: 1 <= j < i ==> versions[j].prerelease != ""
    ensures PastReleasedIndex(versions) == Some(i)
  {
  }

  /*
   * Pull-request numbers of the picked commits
   */

  /** `getPrIDInt` applied to every title. */
  function ParseTitles(titles: seq<string>): (r: seq<PrIdResult>)
    ensures |r| == |titles|
    ensures forall k :: 0 <= k < |r| ==> r[k] == PrIdInt(titles[k])
  {
    seq(|titles|, k requires 0 <= k < |titles| => PrIdInt(titles[k]))
  }

  /**
   The collection loop over the parse results, in commit order: keep the
   number of every parsed title; skip the others (Go warns and continues).
   `None` stands for the runtime panic of a title whose slicing fails.
   */
  function CollectIds(results: seq<PrIdResult>): (r: Option<seq<int>>)
    ensures r.None? <==> exists i :: 0 <= i < |results| && results[i].SliceOutOfRange?
    ensures r.Some? ==> |r.value| <= |results|
    ensures r.Some? ==> forall k :: 0 <= k < |r.value| ==> PrId(r.value[k]) in results
    decreases |results|
  {
    if |results| == 0 then Some([])
    else
      var rest := CollectIds(results[1..]);
      assert forall i :: 1 <= i < |results| ==> results[i] == results[1..][i - 1];
      match results[0]
      case SliceOutOfRange => None
      case PrId(n) => if rest.None? then None else Some([n] + rest.value)
      case NoParentheses => rest
      case NotANumber => rest
  }

  /** The numbers of parse results that are all numbers, in order. */
  function IdsOf(results: seq<PrIdResult>): (r: seq<int>)
    requires forall i :: 0 <= i < |results| ==> results[i].PrId?
    ensures |r| == |results|
    ensures forall k :: 0 <= k < |r| ==> results[k] == PrId(r[k])
  {
    seq(|results|, k requires 0 <= k < |results| => results[k].id)
  }

  /**
   When no title makes Go panic, the collected list is exactly the numbers
   of the titles that parse, in commit order.
   */
  lemma {:induction false} CollectIdsIsFilterMap(results: seq<PrIdResult>)
    requires forall i :: 0 <= i < |results| ==> !results[i].SliceOutOfRange?
    ensures CollectIds(results) == Some(IdsOf(Filter(results, (p: PrIdResult) => p.PrId?)))
    decreases |results|
  {
    if |results| > 0 {
      assert forall i :: 1 <= i < |results| ==> results[i] == results[1..][i - 1];
      CollectIdsIsFilterMap(results[1..]);
      var rest := Filter(results[1..], (p: PrIdResult) => p.PrId?);
      if results[0].PrId? {
        assert Filter(results, (p: PrIdResult) => p.PrId?) == [results[0]] + rest;
        assert IdsOf([results[0]] + rest) == [results[0].id] + IdsOf(rest);
      }
    }
  }

  /** Collection distributes over concatenation of the commit lists. */
  lemma {:induction false} CollectIdsAppend(a: seq<PrIdResult>, b: seq<PrIdResult>)
    ensures CollectIds(a + b) ==
      if CollectIds(a).Some? && CollectIds(b).Some? then Some(CollectIds(a).value + CollectIds(b).value) else None
    decreases |a|
  {
    if |a| == 0 {
      assert a + b == b;
      assert CollectIds(a) == Some([]);
      if CollectIds(b).Some? {
        assert [] + CollectIds(b).value == CollectIds(b).value;
      }
    } else {
      assert (a + b)[1..] == a[1..] + b;
      assert (a + b)[0] == a[0];
      CollectIdsAppend(a[1..], b);
      if a[0].PrId? && CollectIds(a[1..]).Some? && CollectIds(b).Some? {
        var x, y := CollectIds(a[1..]).value, CollectIds(b).value;
        assert [a[0].id] + (x + y) == ([a[0].id] + x) + y;
      }
    }
  }

  /** The PR-number collection of `submit` over the picked commits' titles. */
  function CollectPrIds(titles: seq<string>): (r: Option<seq<int>>)
    ensures r.None? <==> exists i :: 0 <= i < |titles| && PrIdInt(titles[i]).SliceOutOfRange?
    ensures r.Some? ==> |r.value| <= |titles|
    ensures r.Some? ==> forall k :: 0 <= k < |r.value| ==> InIntRange(r.value[k])
  {
    var results := ParseTitles(titles);
    var r := CollectIds(results);
    assert r.Some? ==> forall k :: 0 <= k < |r.value| ==> exists i :: 0 <= i < |titles| && PrIdInt(titles[i]) == PrId(r.value[k]);
    r
  }

  /*
   * The release label
   */

  /** The label of a version: its name without the leading `v`. */
  function LabelName(latest: string): (r: string)
    requires |latest| >= 1
    ensures [latest[0]] + r == latest
  {
    latest[1..]
  }

  /** The answer to `GetLabel`: the label exists, or the call failed, with the HTTP status when there was a response. */
  datatype LabelLookup = LabelExists | LookupFailed(status: Option<int>)

  /** Where the label step leaves `submit`: the label is there (`created` when it had to be made), a fatal error, or a panic. */
  datatype LabelStep = LabelReady(created: bool) | LabelFailed(error: SubmitError) | LabelPanicked

  /**
   The label step: a lookup that fails with status 404 leads to creating the
   label, and the creation's own failure is fatal; any other failed lookup is
   fatal; a failed lookup without a response dereferences a nil response.
   */
  function EnsureLabel(lookup: LabelLookup, createSucceeds: bool, name: string): (r: LabelStep)
    ensures r == LabelReady(false) <==> lookup == LabelExists
    ensures r == LabelReady(true) <==> lookup == LookupFailed(Some(404)) && createSucceeds
    ensures r == LabelPanicked <==> lookup == LookupFailed(None)
    ensures r.LabelFailed? ==> lookup.LookupFailed? && lookup.status.Some?
    ensures r.LabelFailed? && lookup.status.value == 404 ==> !createSucceeds && r.error == LabelCreateFailed(name)
    ensures r.LabelFailed? && lookup.status.value != 404 ==> r.error == LabelLookupFailed(lookup.status.value)
  {
    match lookup
    case LabelExists => LabelReady(false)
    case LookupFailed(None) => LabelPanicked
    case LookupFailed(Some(status)) =>
      if status != 404 then LabelFailed(LabelLookupFailed(status))
      else if createSucceeds then LabelReady(true)
      else LabelFailed(LabelCreateFailed(name))
  }

  /*
   * Labelling the pull requests
   */

  /**
   The test at lines 121-126 of submit.go: some label starts with the
   release-branch name without its `v`. A label of a different branch whose
   name merely begins with it also passes, and with an empty branch name any
   label does.
   */
  predicate AlreadyLabeledAsWritten(pr: PullRequest, branchRaw: string)
    ensures AlreadyLabeledAsWritten(pr, branchRaw) ==> pr.labels != []
    ensures branchRaw == [] ==> (AlreadyLabeledAsWritten(pr, branchRaw) <==> pr.labels != [])
  {
    assert branchRaw == [] && pr.labels != [] ==> HasPrefix(pr.labels[0], branchRaw);
    exists i :: 0 <= i < |pr.labels| && HasPrefix(pr.labels[i], branchRaw)
  }

  /** A label names a version of the branch: the branch itself, or the branch followed by `.`. */
  predicate LabelOfBranch(labelName: string, branchRaw: string) {
    labelName == branchRaw || HasPrefix(labelName, branchRaw + ".")
  }

  /** The intended test: some label names a version of the release branch. */
  predicate AlreadyLabeled(pr: PullRequest, branchRaw: string) {
    exists i :: 0 <= i < |pr.labels| && LabelOfBranch(pr.labels[i], branchRaw)
  }

  /** The intended test accepts only labels the written one accepts. */
  lemma AlreadyLabeledImpliesAsWritten(pr: PullRequest, branchRaw: string)
    requires AlreadyLabeled(pr, branchRaw)
    ensures AlreadyLabeledAsWritten(pr, branchRaw)
  {
    var i :| 0 <= i < |pr.labels| && LabelOfBranch(pr.labels[i], branchRaw);
    assert HasPrefix(pr.labels[i], branchRaw) by {
      if pr.labels[i] != branchRaw {
        assert pr.labels[i][..|branchRaw|] == (branchRaw + ".")[..|branchRaw|];
      }
    }
  }

  /** A label that starts with a branch name never names a version of a branch whose minor number is a shorter prefix of it. */
  lemma LabelOfBranchLonger(l: string, major: string, m1: string, m2: string)
    requires AllDigits(m2) && |m1| < |m2|
    requires HasPrefix(l, major + "." + m2)
    ensures !LabelOfBranch(l, major + "." + m1)
  {
    var b1, b2 := major + "." + m1, major + "." + m2;
    var n := |b1|;
    assert l[n] == b2[n] == m2[|m1|];
  }

  /**
   With the intended test, a label names a version of at most one release
   branch of a major version: `2.10.0` is a label of `2.10` and not of `2.1`.
   */
  lemma LabelOfOneBranch(l: string, major: string, m1: string, m2: string)
    requires AllDigits(m1) && AllDigits(m2)
    requires LabelOfBranch(l, major + "." + m1) && LabelOfBranch(l, major + "." + m2)
    ensures m1 == m2
  {
    var b1, b2 := major + "." + m1, major + "." + m2;
    assert HasPrefix(l, b1) && HasPrefix(l, b2) by {
      if l != b1 { assert l[..|b1 + "."|][..|b1|] == l[..|b1|]; }
      if l != b2 { assert l[..|b2 + "."|][..|b2|] == l[..|b2|]; }
    }
    if |m1| < |m2| {
      LabelOfBranchLonger(l, major, m1, m2);
      assert false;
    } else if |m2| < |m1| {
      LabelOfBranchLonger(l, major, m2, m1);
      assert false;
    } else {
      assert b1 == l[..|b1|] == b2;
      assert m1 == b1[|major| + 1..];
    }
  }

  /**
   A pull request labelled `2.10.0` counts as already labelled for branch
   `v2.1`, so it would never receive the `2.1.x` label.
   */
  lemma OtherBranchLabelCountsAsWritten(pr: PullRequest, branchRaw: string)
    requires branchRaw == "2.1" && pr.labels == ["2.10.0"]
    ensures AlreadyLabeledAsWritten(pr, branchRaw)
    ensures !AlreadyLabeled(pr, branchRaw)
  {
    assert HasPrefix(pr.labels[0], branchRaw);
    assert !LabelOfBranch(pr.labels[0], branchRaw) by {
      assert pr.labels[0][3] == '0';
    }
  }

  /** The pull request can be read and none of its labels passes the test of submit.go. */
  predicate NeedsLabel(fetch: int -> Option<PullRequest>, branchRaw: string, id: int) {
    fetch(id).Some? && !AlreadyLabeledAsWritten(fetch(id).value, branchRaw)
  }

  /** Handling this pull request is fatal: it cannot be read, or it needs the label and adding it fails. */
  predicate LabelStepFails(fetch: int -> Option<PullRequest>, addLabel: int -> bool, branchRaw: string, id: int) {
    fetch(id).None? || (NeedsLabel(fetch, branchRaw, id) && !addLabel(id))
  }

  /** The pull requests labelled by the loop, and the fatal error that stopped it, if any. */
  datatype LabelRun = LabelRun(added: seq<int>, failure: Option<SubmitError>)

  /** The pull request as GitHub returns it once the label `name` has been added to it. */
  function WithLabel(pr: PullRequest, name: string): PullRequest {
    pr.(labels := pr.labels + [name])
  }

  /** After the label is added, the test passes exactly when it passed before or the new label itself starts with the branch name. */
  lemma WithLabelPassesTest(pr: PullRequest, name: string, branchRaw: string)
    ensures AlreadyLabeledAsWritten(WithLabel(pr, name), branchRaw)
      <==> AlreadyLabeledAsWritten(pr, branchRaw) || HasPrefix(name, branchRaw)
  {
    var q := WithLabel(pr, name);
    if HasPrefix(name, branchRaw) {
      assert HasPrefix(q.labels[|pr.labels|], branchRaw);
    }
    if AlreadyLabeledAsWritten(pr, branchRaw) {
      var i :| 0 <= i < |pr.labels| && HasPrefix(pr.labels[i], branchRaw);
      assert q.labels[i] == pr.labels[i];
    }
    if AlreadyLabeledAsWritten(q, branchRaw) {
      var i :| 0 <= i < |q.labels| && HasPrefix(q.labels[i], branchRaw);
      if i < |pr.labels| {
        assert q.labels[i] == pr.labels[i];
      }
    }
  }

  /**
   The loop's read of pull request `id` (`client.PullRequests.Get`), after it
   added the label `name` to the pull requests in `done`: `fetch` is GitHub's
   answer before the loop, and a labelled pull request comes back with the
   label.
   */
  function Reread(fetch: int -> Option<PullRequest>, name: string, done: seq<int>, id: int): Option<PullRequest> {
    if fetch(id).Some? && id in done then Some(WithLabel(fetch(id).value, name)) else fetch(id)
  }

  /**
   A re-read fails exactly when the first read did, and it passes the test
   exactly when the first read did or the pull request was labelled already
   with a label that starts with the branch name.
   */
  lemma RereadTest(fetch: int -> Option<PullRequest>, name: string, done: seq<int>, id: int, branchRaw: string)
    ensures Reread(fetch, name, done, id).None? <==> fetch(id).None?
    ensures Reread(fetch, name, done, id).Some? ==>
      (AlreadyLabeledAsWritten(Reread(fetch, name, done, id).value, branchRaw)
       <==> AlreadyLabeledAsWritten(fetch(id).value, branchRaw) || (id in done && HasPrefix(name, branchRaw)))
  {
    if fetch(id).Some? {
      WithLabelPassesTest(fetch(id).value, name, branchRaw);
    }
  }

  /** Every pull request the loop labelled was read and labelled successfully. */
  predicate DoneSucceeded(fetch: int -> Option<PullRequest>, addLabel: int -> bool, done: seq<int>) {
    forall d :: d in done ==> fetch(d).Some? && addLabel(d)
  }

  /**
   The labelling loop from some point on, `done` being the pull requests it
   has labelled so far. A pull request that occurs again is read again, with
   the label now on it.
   */
  function LabelLoop(
    ids: seq<int>, fetch: int -> Option<PullRequest>, addLabel: int -> bool, branchRaw: string,
    name: string, done: seq<int>): (r: LabelRun)
    requires DoneSucceeded(fetch, addLabel, done)
    ensures r.failure.None? <==> forall k :: 0 <= k < |ids| ==> !LabelStepFails(fetch, addLabel, branchRaw, ids[k])
    ensures r.failure.Some? ==> exists k ::
      && 0 <= k < |ids| && LabelStepFails(fetch, addLabel, branchRaw, ids[k])
      && (forall j :: 0 <= j < k ==> !LabelStepFails(fetch, addLabel, branchRaw, ids[j]))
      && r.failure.value == (if fetch(ids[k]).None? then PullRequestFetchFailed(ids[k]) else AddLabelFailed(ids[k]))
    ensures forall k :: 0 <= k < |r.added| ==>
      r.added[k] in ids && NeedsLabel(fetch, branchRaw, r.added[k]) && addLabel(r.added[k])
    ensures r.failure.None? ==> forall k :: 0 <= k < |ids| && NeedsLabel(fetch, branchRaw, ids[k]) ==>
      ids[k] in r.added || ids[k] in done
    decreases |ids|
  {
    if |ids| == 0 then LabelRun([], None)
    else
      var id := ids[0];
      assert forall k :: 1 <= k < |ids| ==> ids[k] == ids[1..][k - 1];
      RereadTest(fetch, name, done, id, branchRaw);
      match Reread(fetch, name, done, id)
      case None => LabelRun([], Some(PullRequestFetchFailed(id)))
      case Some(pr) =>
        if AlreadyLabeledAsWritten(pr, branchRaw) then LabelLoop(ids[1..], fetch, addLabel, branchRaw, name, done)
        else if !addLabel(id) then LabelRun([], Some(AddLabelFailed(id)))
        else
          var rest := LabelLoop(ids[1..], fetch, addLabel, branchRaw, name, done + [id]);
          LabelRun([id] + rest.added, rest.failure)
  }

  /**
   The labelling loop over the collected numbers, in order: read the pull
   request, leave it alone when one of its labels starts with the branch name
   (the test as written), otherwise add the label `name` (`addLabel` tells
   whether that succeeded). The first failure ends the command.
   */
  function LabelPullRequests(
    ids: seq<int>, fetch: int -> Option<PullRequest>, addLabel: int -> bool, branchRaw: string, name: string): (r: LabelRun)
    ensures r.failure.None? <==> forall k :: 0 <= k < |ids| ==> !LabelStepFails(fetch, addLabel, branchRaw, ids[k])
    ensures r.failure.Some? ==> exists k ::
      && 0 <= k < |ids| && LabelStepFails(fetch, addLabel, branchRaw, ids[k])
      && (forall j :: 0 <= j < k ==> !LabelStepFails(fetch, addLabel, branchRaw, ids[j]))
      && r.failure.value == (if fetch(ids[k]).None? then PullRequestFetchFailed(ids[k]) else AddLabelFailed(ids[k]))
    ensures forall k :: 0 <= k < |r.added| ==>
      r.added[k] in ids && NeedsLabel(fetch, branchRaw, r.added[k]) && addLabel(r.added[k])
    ensures r.failure.None? ==> forall k :: 0 <= k < |ids| && NeedsLabel(fetch, branchRaw, ids[k]) ==> ids[k] in r.added
  {
    LabelLoop(ids, fetch, addLabel, branchRaw, name, [])
  }

  /** `s` without the elements in `seen` and without repeats, keeping first occurrences in order. */
  function FirstOccurrences(s: seq<int>, seen: seq<int>): (r: seq<int>)
    ensures forall k :: 0 <= k < |r| ==> r[k] in s && r[k] !in seen
    ensures forall x :: x in s && x !in seen ==> x in r
    decreases |s|
  {
    if s == [] then []
    else
      assert forall k :: 1 <= k < |s| ==> s[k] == s[1..][k - 1];
      if s[0] in seen then FirstOccurrences(s[1..], seen)
      else [s[0]] + FirstOccurrences(s[1..], seen + [s[0]])
  }

  /** No element occurs twice. */
  predicate Distinct(s: seq<int>) {
    forall i, j :: 0 <= i < j < |s| ==> s[i] != s[j]
  }

  /** No element occurs twice among the first occurrences. */
  lemma {:induction false} FirstOccurrencesDistinct(s: seq<int>, seen: seq<int>)
    ensures Distinct(FirstOccurrences(s, seen))
    decreases |s|
  {
    if s != [] {
      if s[0] in seen {
        FirstOccurrencesDistinct(s[1..], seen);
      } else {
        var rest := FirstOccurrences(s[1..], seen + [s[0]]);
        FirstOccurrencesDistinct(s[1..], seen + [s[0]]);
        assert forall k :: 0 <= k < |rest| ==> rest[k] != s[0];
        var r := [s[0]] + rest;
        forall i, j | 0 <= i < j < |r| ensures r[i] != r[j] {
          if i > 0 {
            assert r[i] == rest[i - 1] && r[j] == rest[j - 1];
          }
        }
      }
    }
  }

  /**
   From any point, the loop labels exactly the pull requests that need the
   label before the first failing one, in list order; when the label itself
   starts with the branch name, a pull request labelled earlier passes the
   test when it comes again, so only its first occurrence is labelled.
   */
  lemma {:induction false} LabelLoopLabels(
    ids: seq<int>, fetch: int -> Option<PullRequest>, addLabel: int -> bool, branchRaw: string,
    name: string, done: seq<int>)
    requires DoneSucceeded(fetch, addLabel, done)
    ensures var stop := FirstIndex(ids, (id: int) => LabelStepFails(fetch, addLabel, branchRaw, id));
      var needing := Filter(ids[..stop], (id: int) => NeedsLabel(fetch, branchRaw, id));
      LabelLoop(ids, fetch, addLabel, branchRaw, name, done).added
      == if HasPrefix(name, branchRaw) then FirstOccurrences(needing, done) else needing
    decreases |ids|
  {
    if |ids| > 0 {
      var id, tail := ids[0], ids[1..];
      RereadTest(fetch, name, done, id, branchRaw);
      if !LabelStepFails(fetch, addLabel, branchRaw, id) {
        var stop := FirstIndex(ids, (id: int) => LabelStepFails(fetch, addLabel, branchRaw, id));
        var stop' := FirstIndex(tail, (id: int) => LabelStepFails(fetch, addLabel, branchRaw, id));
        assert stop == 1 + stop';
        assert ids[..stop] == [id] + tail[..stop'];
        LabelLoopLabels(tail, fetch, addLabel, branchRaw, name, done);
        if NeedsLabel(fetch, branchRaw, id) {
          LabelLoopLabels(tail, fetch, addLabel, branchRaw, name, done + [id]);
        }
      }
    }
  }

  /**
   The loop labels exactly the pull requests that need the label among those
   before the first failing one, in list order, each once when the label
   starts with the branch name.
   */
  lemma LabelledAreThoseNeedingIt(
    ids: seq<int>, fetch: int -> Option<PullRequest>, addLabel: int -> bool, branchRaw: string, name: string)
    ensures var stop := FirstIndex(ids, (id: int) => LabelStepFails(fetch, addLabel, branchRaw, id));
      var needing := Filter(ids[..stop], (id: int) => NeedsLabel(fetch, branchRaw, id));
      LabelPullRequests(ids, fetch, addLabel, branchRaw, name).added
      == if HasPrefix(name, branchRaw) then FirstOccurrences(needing, []) else needing
  {
    LabelLoopLabels(ids, fetch, addLabel, branchRaw, name, []);
  }

  /** When the label starts with the branch name, no pull request is labelled twice, however often its number occurs. */
  lemma LabelledOnce(
    ids: seq<int>, fetch: int -> Option<PullRequest>, addLabel: int -> bool, branchRaw: string, name: string)
    requires HasPrefix(name, branchRaw)
    ensures Distinct(LabelPullRequests(ids, fetch, addLabel, branchRaw, name).added)
  {
    LabelledAreThoseNeedingIt(ids, fetch, addLabel, branchRaw, name);
    var stop := FirstIndex(ids, (id: int) => LabelStepFails(fetch, addLabel, branchRaw, id));
    FirstOccurrencesDistinct(Filter(ids[..stop], (id: int) => NeedsLabel(fetch, branchRaw, id)), []);
  }

  /*
   * The whole command
   */

  /** After a loop without failure, every pull request either had a label starting with the branch name or got the label. */
  lemma EveryPullRequestLabelled(
    prs: seq<int>, fetch: int -> Option<PullRequest>, addLabel: int -> bool, branchRaw: string, name: string)
    ensures var run := LabelPullRequests(prs, fetch, addLabel, branchRaw, name);
      var added := AddActions(run.added, name);
      run.failure.None? ==> forall k :: 0 <= k < |prs| ==>
        fetch(prs[k]).Some? && (AlreadyLabeledAsWritten(fetch(prs[k]).value, branchRaw) || AddLabel(prs[k], name) in added)
  {
    var run := LabelPullRequests(prs, fetch, addLabel, branchRaw, name);
    var added := AddActions(run.added, name);
    forall k | run.failure.None? && 0 <= k < |prs| && !AlreadyLabeledAsWritten(fetch(prs[k]).value, branchRaw)
      ensures AddLabel(prs[k], name) in added
    {
      assert !LabelStepFails(fetch, addLabel, branchRaw, prs[k]);
      assert NeedsLabel(fetch, branchRaw, prs[k]);
      var j :| 0 <= j < |run.added| && run.added[j] == prs[k];
      assert added[j] == AddLabel(prs[k], name);
    }
  }

  /** A change `submit` makes on GitHub. */
  datatype ForgeAction = CreateLabel(name: string) | AddLabel(pr: int, name: string)

  datatype SubmitStatus = Submitted | SubmitFailed(error: SubmitError) | SubmitPanicked

  /** The collected numbers, the changes made on GitHub in order, and how the command ended. */
  datatype SubmitOutcome = SubmitOutcome(prs: seq<int>, actions: seq<ForgeAction>, status: SubmitStatus)

  /** One `AddLabel` per labelled pull request, in order. */
  function AddActions(ids: seq<int>, name: string): (r: seq<ForgeAction>)
    ensures |r| == |ids|
    ensures forall k :: 0 <= k < |r| ==> r[k] == AddLabel(ids[k], name)
  {
    seq(|ids|, k requires 0 <= k < |ids| => AddLabel(ids[k], name))
  }

  /**
   The labelling of `submit` after its label step: `made` are the changes the
   label step made, `name` the label, and `branch` the release-branch name,
   whose `v` is dropped (an empty name makes that slice panic).
   */
  function LabelBranch(
    prs: seq<int>, made: seq<ForgeAction>, name: string, branch: string,
    fetch: int -> Option<PullRequest>, addLabel: int -> bool): (r: SubmitOutcome)
    ensures r.prs == prs
    ensures |made| <= |r.actions| && r.actions[..|made|] == made
    ensures forall k :: |made| <= k < |r.actions| ==>
      && r.actions[k].AddLabel? && |branch| >= 1 && r.actions[k].pr in prs
      && NeedsLabel(fetch, branch[1..], r.actions[k].pr) && r.actions[k].name == name
    ensures r.status == SubmitPanicked <==> |branch| == 0
    ensures r.status.Submitted? <==>
      |branch| >= 1 && forall k :: 0 <= k < |prs| ==> !LabelStepFails(fetch, addLabel, branch[1..], prs[k])
    ensures r.status.SubmitFailed? ==> r.status.error.PullRequestFetchFailed? || r.status.error.AddLabelFailed?
    ensures r.status.Submitted? ==> |branch| >= 1 && forall k :: 0 <= k < |prs| ==>
      && fetch(prs[k]).Some?
      && (AlreadyLabeledAsWritten(fetch(prs[k]).value, branch[1..]) || AddLabel(prs[k], name) in r.actions)
    // The label additions are exactly those the labelling loop makes, in its order.
    ensures |branch| == 0 ==> r.actions == made
    ensures |branch| >= 1 ==>
      r.actions[|made|..] == AddActions(LabelPullRequests(prs, fetch, addLabel, branch[1..], name).added, name)
  {
    if |branch| == 0 then SubmitOutcome(prs, made, SubmitPanicked)
    else
      var run := LabelPullRequests(prs, fetch, addLabel, branch[1..], name);
      var added := AddActions(run.added, name);
      assert (made + added)[..|made|] == made;
      assert (made + added)[|made|..] == added;
      assert forall k :: 0 <= k < |added| ==> (made + added)[|made| + k] == added[k];
      EveryPullRequestLabelled(prs, fetch, addLabel, branch[1..], name);
      SubmitOutcome(prs, made + added, if run.failure.None? then Submitted else SubmitFailed(run.failure.value))
  }

  /**
   The GitHub half of `submit`, once the numbers are collected: the label
   step, then the labelling loop with the release-branch name `branch` minus
   its `v`.
   */
  function LabelRelease(
    prs: seq<int>, latest: string, branch: string, lookup: LabelLookup, createSucceeds: bool,
    fetch: int -> Option<PullRequest>, addLabel: int -> bool): (r: SubmitOutcome)
    requires |latest| >= 1
    ensures r.prs == prs
    ensures r.status.Submitted? ==> |branch| >= 1 && forall k :: 0 <= k < |prs| ==>
      && fetch(prs[k]).Some?
      && (AlreadyLabeledAsWritten(fetch(prs[k]).value, branch[1..]) || AddLabel(prs[k], LabelName(latest)) in r.actions)
    ensures forall k :: 0 <= k < |r.actions| && r.actions[k].CreateLabel? ==>
      lookup == LookupFailed(Some(404)) && r.actions[k].name == LabelName(latest)
    ensures forall k :: 0 <= k < |r.actions| && r.actions[k].AddLabel? ==>
      |branch| >= 1 && r.actions[k].pr in prs && NeedsLabel(fetch, branch[1..], r.actions[k].pr)
      && r.actions[k].name == LabelName(latest)
    ensures r.status.SubmitFailed? ==> !r.status.error.InvalidLatest? && !r.status.error.StillPrerelease?
    ensures r.status.Submitted? <==>
      && EnsureLabel(lookup, createSucceeds, LabelName(latest)).LabelReady? && |branch| >= 1
      && forall k :: 0 <= k < |prs| ==> !LabelStepFails(fetch, addLabel, branch[1..], prs[k])
    ensures r.status == SubmitPanicked <==>
      lookup == LookupFailed(None) || (EnsureLabel(lookup, createSucceeds, LabelName(latest)).LabelReady? && |branch| == 0)
    // The label is created, as the first change, exactly after a 404 and a successful creation.
    ensures (|r.actions| > 0 && r.actions[0] == CreateLabel(LabelName(latest))) <==>
      lookup == LookupFailed(Some(404)) && createSucceeds
    ensures !EnsureLabel(lookup, createSucceeds, LabelName(latest)).LabelReady? ==> r.actions == []
    // With the label ready, the rest is the labelling of the branch after the creation, if any.
    ensures EnsureLabel(lookup, createSucceeds, LabelName(latest)).LabelReady? ==>
      r == LabelBranch(prs, if lookup == LabelExists then [] else [CreateLabel(LabelName(latest))],
                       LabelName(latest), branch, fetch, addLabel)
  {
    var name := LabelName(latest);
    match EnsureLabel(lookup, createSucceeds, name)
    case LabelPanicked => SubmitOutcome(prs, [], SubmitPanicked)
    case LabelFailed(e) => SubmitOutcome(prs, [], SubmitFailed(e))
    case LabelReady(created) =>
      var made := if created then [CreateLabel(name)] else [];
      var r := LabelBranch(prs, made, name, branch, fetch, addLabel);
      assert r.actions[..|made|] == made;
      assert created ==> r.actions[0] == CreateLabel(name);
      r
  }

  /**
   `submit` gets past its checks to the label step: the newest version is a
   stable semantic version, an earlier stable version exists, every picked
   title parses without a panic, and the remote URL and the version can be
   sliced.
   */
  predicate ReachesLabelling(
    latest: string, latestPrerelease: Option<string>, versions: seq<Version>,
    picked: string -> seq<string>, originUrl: string)
  {
    && latestPrerelease == Some("") && |versions| >= 1 && PastReleasedIndex(versions).Some?
    && CollectPrIds(picked(versions[PastReleasedIndex(versions).value].name)).Some?
    && '/' in originUrl && |latest| >= 1
  }

  /**
   The `submit` command. `latest` is the newest version tag and
   `latestPrerelease` the prerelease part the version library parses from it
   (`None` when it is not a semantic version); `versions` is every version,
   newest first; `picked` gives the titles of the commits picked since a
   version; `branch` is the release branch of `latest`. `lookup`,
   `createSucceeds`, `fetch` and `addLabel` are GitHub's answers.
   */
  function Submit(
    latest: string, latestPrerelease: Option<string>, versions: seq<Version>,
    picked: string -> seq<string>, originUrl: string, branch: string,
    lookup: LabelLookup, createSucceeds: bool,
    fetch: int -> Option<PullRequest>, addLabel: int -> bool): (r: SubmitOutcome)
    ensures r.status == SubmitFailed(InvalidLatest(latest)) <==> latestPrerelease.None?
    ensures r.status == SubmitFailed(StillPrerelease(latest)) <==> latestPrerelease.Some? && latestPrerelease.value != ""
    ensures r.status.Submitted? ==>
      && |versions| >= 1 && PastReleasedIndex(versions).Some?
      && CollectPrIds(picked(versions[PastReleasedIndex(versions).value].name)) == Some(r.prs)
    ensures r.status.Submitted? ==> |latest| >= 1 && r == LabelRelease(r.prs, latest, branch, lookup, createSucceeds, fetch, addLabel)
    ensures r.status == SubmitPanicked <==>
      && latestPrerelease == Some("")
      && (|| |versions| == 0
          || PastReleasedIndex(versions).None?
          || CollectPrIds(picked(versions[PastReleasedIndex(versions).value].name)).None?
          || '/' !in originUrl || |latest| == 0
          || lookup == LookupFailed(None)
          || (EnsureLabel(lookup, createSucceeds, LabelName(latest)).LabelReady? && |branch| == 0))
    // Once the release and its pull requests are known, the labelling decides the outcome.
    ensures ReachesLabelling(latest, latestPrerelease, versions, picked, originUrl) ==>
      r == LabelRelease(CollectPrIds(picked(versions[PastReleasedIndex(versions).value].name)).value,
                        latest, branch, lookup, createSucceeds, fetch, addLabel)
    // Before the label step nothing is changed on GitHub.
    ensures !ReachesLabelling(latest, latestPrerelease, versions, picked, originUrl) ==> r.actions == []
  {
    if latestPrerelease.None? then SubmitOutcome([], [], SubmitFailed(InvalidLatest(latest)))
    else if latestPrerelease.value != "" then SubmitOutcome([], [], SubmitFailed(StillPrerelease(latest)))
    else if |versions| == 0 then SubmitOutcome([], [], SubmitPanicked)
    else match PastReleasedIndex(versions)
      case None => SubmitOutcome([], [], SubmitPanicked)
      case Some(i) =>
        match CollectPrIds(picked(versions[i].name))
        case None => SubmitOutcome([], [], SubmitPanicked)
        case Some(prs) =>
          if '/' !in originUrl || |latest| == 0 then SubmitOutcome(prs, [], SubmitPanicked)
          else LabelRelease(prs, latest, branch, lookup, createSucceeds, fetch, addLabel)
  }
}

=== FILE: utils.dfy ===
/**
 The helpers of `utils.go`: commit titles, pull-request numbers embedded in
 titles, the owner and name of a repository from its remote URL, `owner/repo#N`
 references, log searches and the result of a shell command.
 */
module Utils {
  import opened Outcomes
  import opened GoStrings
  import opened GoStrconv
  import opened Seqs
  import opened Repo

  /*
   * Commit titles
   */

  /** `getCommitTitle`: the first line of the trimmed message, trimmed again. */
  function CommitTitle(msg: string): (t: string)
    ensures '\n' !in t
    ensures IsTrimmed(t)
  {
    var first := Split(TrimSpace(msg), '\n')[0];
    TrimSpace(first)
  }

  /** A trimmed single line is its own title. */
  lemma TitleOfTitle(t: string)
    requires IsTrimmed(t) && '\n' !in t
    ensures CommitTitle(t) == t
  {
    assert Split(t, '\n') == [t];
  }

  /** Taking the title of a title changes nothing. */
  lemma TitleIdempotent(msg: string)
    ensures CommitTitle(CommitTitle(msg)) == CommitTitle(msg)
  {
    TitleOfTitle(CommitTitle(msg));
  }

  /** A non-empty trimmed line followed by a newline and any body has that line as its title. */
  lemma TitleOfMessage(title: string, body: string)
    requires title != [] && '\n' !in title && IsTrimmed(title)
    ensures CommitTitle(title + "\n" + body) == title
  {
    var msg := title + "\n" + body;
    assert msg[0] == title[0];
    assert TrimLeft(msg) == msg;
    var trimmed := TrimRight(msg);
    assert msg[|title| - 1] == title[|title| - 1];
    assert |trimmed| >= |title|;
    assert trimmed[..|title|] == title;
    if |trimmed| == |title| {
      assert trimmed == title;
    } else {
      assert trimmed == title + [trimmed[|title|]] + trimmed[|title| + 1..];
      assert trimmed[|title|] == '\n';
      IndexOfAfter(title, '\n', trimmed[|title| + 1..]);
    }
  }

  /*
   * Pull-request numbers in titles
   */

  /**
   `getPrID`: the text strictly between the last `(` and the last `)`. Go panics
   when the message has no `)` or when the last `(` comes after the last `)`;
   when there is no `(` at all the text runs from the start of the message.
   */
  function PrIdText(msg: string): (r: string)
    requires ')' in msg
    requires LastIndexOf(msg, '(') < LastIndexOf(msg, ')')
    ensures '(' !in r
    ensures |r| == LastIndexOf(msg, ')') - LastIndexOf(msg, '(') - 1
    ensures r == msg[LastIndexOf(msg, '(') + 1..LastIndexOf(msg, ')')]
  {
    var pleft := LastIndexOf(msg, '(');
    var pright := LastIndexOf(msg, ')');
    var r := msg[..pright][pleft + 1..];
    assert forall k :: 0 <= k < |r| ==> r[k] == msg[pleft + 1 + k];
    r
  }

  /** The outcome of `getPrIDInt`; `SliceOutOfRange` is a Go runtime panic, not a returned error. */
  datatype PrIdResult = PrId(id: int) | NoParentheses | NotANumber | SliceOutOfRange

  /**
   `getPrIDInt`: locate the last `(` and the last `)`, take the text between
   them, drop its first byte (meant to be the `#`), and parse the rest as a
   decimal `int`. When the first character is not ASCII, dropping one byte
   leaves UTF-8 continuation bytes in front, which no parse accepts.
   */
  function PrIdInt(msg: string): (r: PrIdResult)
    ensures r.NoParentheses? <==> '(' !in msg || ')' !in msg
    ensures r.SliceOutOfRange? <==>
      '(' in msg && ')' in msg && LastIndexOf(msg, ')') <= LastIndexOf(msg, '(') + 1
    ensures r.PrId? ==> InIntRange(r.id)
  {
    var pleft := LastIndexOf(msg, '(');
    var pright := LastIndexOf(msg, ')');
    if pleft == -1 || pright == -1 then NoParentheses
    else if pright < pleft + 1 then SliceOutOfRange
    else
      var inner := msg[..pright][pleft + 1..];
      if |inner| < 1 then SliceOutOfRange
      else if Utf8Width(inner[0]) > 1 then NotANumber
      else match Atoi(inner[1..])
        case Some(n) => PrId(n)
        case None => NotANumber
  }

  /** `getPrIDInt` parses exactly what `getPrID` extracts, minus its first character. */
  lemma PrIdIntParsesPrIdText(msg: string)
    requires '(' in msg && ')' in msg
    requires LastIndexOf(msg, '(') + 1 < LastIndexOf(msg, ')')
    ensures |PrIdText(msg)| >= 1
    ensures PrIdInt(msg) ==
      if Utf8Width(PrIdText(msg)[0]) > 1 then NotANumber
      else match Atoi(PrIdText(msg)[1..])
        case Some(n) => PrId(n)
        case None => NotANumber
  {
  }

  /** A group whose first character is not ASCII gives no number, even when digits follow it. */
  lemma PrIdIntNonAsciiMark()
    ensures PrIdInt("x (\U{e9}42)") == NotANumber
  {
    PrIdTextOfGroup("x ", "\U{e9}42", "");
  }

  /** Wrapping text in a final parenthesised group, with nothing parenthesised after it, makes `getPrID` return that text. */
  lemma PrIdTextOfGroup(s: string, inner: string, tail: string)
    requires '(' !in inner && ')' !in inner
    requires '(' !in tail && ')' !in tail
    ensures var msg := s + "(" + inner + ")" + tail;
      && LastIndexOf(msg, '(') == |s|
      && LastIndexOf(msg, ')') == |s| + 1 + |inner|
      && PrIdText(msg) == inner
  {
    var msg := s + "(" + inner + ")" + tail;
    LastIndexOfBefore(s, '(', inner + ")" + tail);
    assert msg == s + ['('] + (inner + ")" + tail);
    LastIndexOfBefore(s + "(" + inner, ')', tail);
    assert msg == (s + "(" + inner) + [')'] + tail;
    assert msg[..|s| + 1 + |inner|][|s| + 1..] == inner;
  }

  /** A title ending in ` (#N)` yields `N`, whatever parentheses come before it. */
  lemma PrIdIntOfSuffix(s: string, n: nat)
    requires n <= MaxInt
    ensures PrIdInt(s + " (#" + Decimal(n) + ")") == PrId(n)
  {
    var d := Decimal(n);
    var inner := "#" + d;
    assert '(' !in inner && ')' !in inner by {
      assert forall k :: 0 <= k < |d| ==> IsDigit(d[k]);
    }
    var msg := s + " (#" + d + ")";
    assert msg == (s + " ") + "(" + inner + ")" + "";
    PrIdTextOfGroup(s + " ", inner, "");
    PrIdIntParsesPrIdText(msg);
    assert inner[1..] == d;
    AtoiDecimal(n);
  }

  /** The title `Fix (temp) thing (#42)` yields 42, not a failure at its first parenthesis. */
  lemma PrIdIntExample()
    ensures PrIdInt("Fix (temp) thing (#42)") == PrId(42)
  {
    assert Decimal(42) == "42";
    assert "Fix (temp) thing" + " (#" + "42" + ")" == "Fix (temp) thing (#42)";
    PrIdIntOfSuffix("Fix (temp) thing", 42);
  }

  /*
   * Repository owner and name
   */

  /** Everything after the first `:`, or the whole string when it has none. */
  function AfterFirstColon(s: string): (r: string)
    ensures ':' !in s ==> r == s
    ensures ':' in s ==> exists k :: 0 <= k < |s| && s[k] == ':' && r == s[k + 1..] && ':' !in s[..k]
    ensures forall c :: c in r ==> c in s
  {
    var colon := IndexOf(s, ':');
    if colon != -1 then
      assert ':' !in s[..colon];
      s[colon + 1..]
    else s
  }

  /**
   `getOwnerAndRepoFromURL`: strip one trailing `.git`, split on `/`, and take
   the last two segments; the owner also loses everything up to its first `:`
   (the `user@host:` of an SSH URL). Go indexes out of range when the URL has
   no `/`.
   */
  function OwnerAndRepo(url: string): (r: (string, string))
    requires '/' in url
    ensures '/' !in r.0 && '/' !in r.1
  {
    var trimmed := TrimSuffix(url, ".git");
    assert '/' in trimmed by {
      if HasSuffix(url, ".git") {
        var k :| 0 <= k < |url| && url[k] == '/';
        assert url == trimmed + ".git";
        assert forall j :: |trimmed| <= j < |url| ==> url[j] == ".git"[j - |trimmed|];
        assert trimmed[k] == url[k];
      }
    }
    var parts := Split(trimmed, '/');
    var owner := parts[|parts| - 2];
    var repo := parts[|parts| - 1];
    (AfterFirstColon(owner), repo)
  }

  /** Splitting `owner/repo` on `/` gives exactly those two segments. */
  lemma SplitOwnerAndRepo(owner: string, repo: string)
    requires '/' !in owner && '/' !in repo
    ensures Split(owner + "/" + repo, '/') == [owner, repo]
  {
    assert owner + "/" + repo == owner + ['/'] + repo;
    SplitSnoc(owner, '/', repo);
    assert Split(owner, '/') == [owner];
  }

  /** Splitting `head/owner/repo` on `/` ends with the two segments `owner` and `repo`. */
  lemma SplitPathOwnerAndRepo(head: string, owner: string, repo: string)
    requires '/' !in owner && '/' !in repo
    ensures Split(head + "/" + owner + "/" + repo, '/') == Split(head, '/') + [owner] + [repo]
  {
    assert head + "/" + owner + "/" + repo == (head + ['/'] + owner) + ['/'] + repo;
    SplitSnoc(head + ['/'] + owner, '/', repo);
    SplitSnoc(head, '/', owner);
  }

  /** Splitting `owner/repo` after a `/` (or nothing) on `/` gives those two segments last. */
  lemma SplitEndsWithOwnerAndRepo(prefix: string, owner: string, repo: string)
    requires '/' !in owner && '/' !in repo
    requires prefix == [] || prefix[|prefix| - 1] == '/'
    ensures var parts := Split(prefix + owner + "/" + repo, '/');
      |parts| >= 2 && parts[|parts| - 2] == owner && parts[|parts| - 1] == repo
  {
    if prefix == [] {
      assert prefix + owner + "/" + repo == owner + "/" + repo;
      SplitOwnerAndRepo(owner, repo);
    } else {
      var head := prefix[..|prefix| - 1];
      assert prefix + owner + "/" + repo == head + "/" + owner + "/" + repo;
      SplitPathOwnerAndRepo(head, owner, repo);
    }
  }

  /** When the stripped URL ends in `owner/repo` after a `/` (or nothing), those are the two segments used. */
  lemma OwnerAndRepoOfPath(url: string, prefix: string, owner: string, repo: string)
    requires '/' !in owner && '/' !in repo
    requires prefix == [] || prefix[|prefix| - 1] == '/'
    requires TrimSuffix(url, ".git") == prefix + owner + "/" + repo
    ensures '/' in url
    ensures OwnerAndRepo(url) == (AfterFirstColon(owner), repo)
  {
    var trimmed := TrimSuffix(url, ".git");
    assert trimmed[|prefix| + |owner|] == '/';
    assert '/' in url by {
      var k := |prefix| + |owner|;
      if HasSuffix(url, ".git") {
        assert url == trimmed + ".git";
        assert url[k] == '/';
      }
    }
    SplitEndsWithOwnerAndRepo(prefix, owner, repo);
  }

  /** An HTTPS remote `<host>/<owner>/<repo>.git` gives back its owner and repository. */
  lemma OwnerAndRepoOfHttpsUrl(host: string, owner: string, repo: string)
    requires '/' !in owner && ':' !in owner && '/' !in repo
    ensures OwnerAndRepo(host + "/" + owner + "/" + repo + ".git") == (owner, repo)
  {
    var url := host + "/" + owner + "/" + repo + ".git";
    assert HasSuffix(url, ".git");
    assert TrimSuffix(url, ".git") == (host + "/") + owner + "/" + repo;
    OwnerAndRepoOfPath(url, host + "/", owner, repo);
  }

  /** An SSH remote `<user@host>:<owner>/<repo>.git` gives back its owner and repository. */
  lemma OwnerAndRepoOfSshUrl(userHost: string, owner: string, repo: string)
    requires '/' !in userHost && ':' !in userHost
    requires '/' !in owner && ':' !in owner && '/' !in repo
    ensures OwnerAndRepo(userHost + ":" + owner + "/" + repo + ".git") == (owner, repo)
  {
    var url := userHost + ":" + owner + "/" + repo + ".git";
    var segment := userHost + ":" + owner;
    assert HasSuffix(url, ".git");
    assert TrimSuffix(url, ".git") == [] + segment + "/" + repo;
    assert '/' !in segment;
    OwnerAndRepoOfPath(url, [], segment, repo);
    IndexOfAfter(userHost, ':', owner);
    assert segment == userHost + [':'] + owner;
    assert segment[|userHost| + 1..] == owner;
  }

  /** The HTTPS remote of the Pegasus repository names owner `xiaomi` and repository `pegasus`. */
  lemma OwnerAndRepoHttpsExample()
    ensures OwnerAndRepo("https://github.com/xiaomi/pegasus.git") == ("xiaomi", "pegasus")
  {
    assert "https://github.com" + "/" + "xiaomi" + "/" + "pegasus" + ".git"
      == "https://github.com/xiaomi/pegasus.git";
    assert '/' !in "xiaomi" && ':' !in "xiaomi" && '/' !in "pegasus";
    OwnerAndRepoOfHttpsUrl("https://github.com", "xiaomi", "pegasus");
  }

  /** The SSH remote of the Pegasus repository names the same owner and repository. */
  lemma OwnerAndRepoSshExample()
    ensures OwnerAndRepo("git@github.com:xiaomi/pegasus.git") == ("xiaomi", "pegasus")
  {
    assert "git@github.com" + ":" + "xiaomi" + "/" + "pegasus" + ".git"
      == "git@github.com:xiaomi/pegasus.git";
    assert '/' !in "git@github.com" && ':' !in "git@github.com";
    assert '/' !in "xiaomi" && ':' !in "xiaomi" && '/' !in "pegasus";
    OwnerAndRepoOfSshUrl("git@github.com", "xiaomi", "pegasus");
  }

  /*
   * Pull-request references
   */

  /** `getPrName`: `owner/repo#N`. */
  function PrName(owner: string, repo: string, id: int): (r: string)
    ensures HasPrefix(r, owner + "/" + repo + "#")
  {
    owner + "/" + repo + "#" + Itoa(id)
  }

  /** The reference splits back, at its last `#`, into `owner/repo` and a number that parses to `id`. */
  lemma PrNameRoundTrip(owner: string, repo: string, id: int)
    requires InIntRange(id)
    ensures var name := PrName(owner, repo, id);
      var k := LastIndexOf(name, '#');
      0 <= k && name[..k] == owner + "/" + repo && Atoi(name[k + 1..]) == Some(id)
  {
    var digits := Itoa(id);
    assert '#' !in digits by {
      assert forall j :: 1 <= j < |digits| ==> digits[j] == digits[1..][j - 1];
    }
    var name := PrName(owner, repo, id);
    assert name == (owner + "/" + repo) + ['#'] + digits;
    LastIndexOfBefore(owner + "/" + repo, '#', digits);
    AtoiItoa(id);
  }

  /*
   * Log searches
   */

  /** The titles of a log's commits, in log order. */
  function Titles(log: seq<Commit>): (r: seq<string>)
    ensures |r| == |log|
  {
    seq(|log|, k requires 0 <= k < |log| => CommitTitle(log[k].message))
  }

  /** The position of the first title that contains `substr`. */
  function FirstContaining(titles: seq<string>, substr: string): (r: Option<nat>)
    ensures r.None? <==> forall i :: 0 <= i < |titles| ==> !Contains(titles[i], substr)
    ensures r.Some? ==> r.value < |titles| && Contains(titles[r.value], substr)
    ensures r.Some? ==> forall j :: 0 <= j < r.value ==> !Contains(titles[j], substr)
    decreases |titles|
  {
    if |titles| == 0 then None
    else if Contains(titles[0], substr) then Some(0)
    else
      var rest := FirstContaining(titles[1..], substr);
      assert forall i :: 1 <= i < |titles| ==> titles[i] == titles[1..][i - 1];
      if rest.None? then None else Some(rest.value + 1)
  }

  /**
   `findCommitContainsStrInRepo`: the position in the log of the first commit
   whose title contains `substr`.
   */
  function FindCommitContaining(log: seq<Commit>, substr: string): (r: Option<nat>)
    ensures r.None? <==> forall i :: 0 <= i < |log| ==> !Contains(Titles(log)[i], substr)
    ensures r.Some? ==> r.value < |log| && Contains(Titles(log)[r.value], substr)
    ensures r.Some? ==> forall j :: 0 <= j < r.value ==> !Contains(Titles(log)[j], substr)
  {
    FirstContaining(Titles(log), substr)
  }

  /**
   `findEqualCommitInRepo` as written: a search for the first commit whose
   title CONTAINS the title of `commit`.
   */
  function FindEqualCommitAsWritten(log: seq<Commit>, commit: Commit): (r: Option<nat>)
    ensures r.None? <==> forall i :: 0 <= i < |log| ==> !Contains(Titles(log)[i], CommitTitle(commit.message))
    ensures r.Some? ==> r.value < |log| && Contains(Titles(log)[r.value], CommitTitle(commit.message))
    ensures r.Some? ==> forall j :: 0 <= j < r.value ==> !Contains(Titles(log)[j], CommitTitle(commit.message))
  {
    FindCommitContaining(log, CommitTitle(commit.message))
  }

  /** A commit with the same title is always found, though the one found may be an earlier, different one. */
  lemma FindEqualCommitFindsSameTitle(log: seq<Commit>, commit: Commit, i: nat)
    requires i < |log| && CommitTitle(log[i].message) == CommitTitle(commit.message)
    ensures FindEqualCommitAsWritten(log, commit).Some?
    ensures FindEqualCommitAsWritten(log, commit).value <= i
  {
    var t := CommitTitle(commit.message);
    assert HasPrefix(t, t);
    assert Contains(Titles(log)[i], t);
  }

  /** The substring search returns a commit whose title differs from the one searched for. */
  lemma FindEqualCommitMatchesLongerTitle(log: seq<Commit>, commit: Commit)
    requires log == [Commit("a1", "Fix CI", []), Commit("b2", "Fix", [])]
    requires commit == Commit("c3", "Fix", [])
    ensures FindEqualCommitAsWritten(log, commit) == Some(0)
    ensures CommitTitle(log[0].message) != CommitTitle(commit.message)
  {
    SingleLineTitle(commit.message);
    SingleLineTitle(log[0].message);
    FixOccursInFixCi(commit.message, log[0].message);
    FirstContainingTitleFound(log, commit);
  }

  /** The shorter title of the counterexample occurs in the longer one. */
  lemma FixOccursInFixCi(t: string, longer: string)
    requires t == "Fix" && longer == "Fix CI"
    ensures Contains(longer, t)
  {
    assert longer[..|t|] == t;
  }

  /** Each title of the counterexample is a trimmed single line. */
  lemma SingleLineTitle(t: string)
    requires t == "Fix" || t == "Fix CI"
    ensures CommitTitle(t) == t
  {
    TitleOfTitle(t);
  }

  /** When the first commit's title contains the searched title, the first commit is returned. */
  lemma FirstContainingTitleFound(log: seq<Commit>, commit: Commit)
    requires |log| > 0 && Contains(Titles(log)[0], CommitTitle(commit.message))
    ensures FindEqualCommitAsWritten(log, commit) == Some(0)
  {
  }

  /**
   The search `findEqualCommitInRepo` is meant to be: the first commit whose
   title EQUALS the title of `commit`.
   */
  function FindSameTitleCommit(log: seq<Commit>, commit: Commit): (r: Option<nat>)
    ensures r.None? <==> CommitTitle(commit.message) !in Titles(log)
    ensures r.Some? ==> r.value < |log| && Titles(log)[r.value] == CommitTitle(commit.message)
    ensures r.Some? ==> CommitTitle(commit.message) !in Titles(log)[..r.value]
  {
    FirstEqual(Titles(log), CommitTitle(commit.message))
  }

  /** The position of the first title equal to `t`. */
  function FirstEqual(titles: seq<string>, t: string): (r: Option<nat>)
    ensures r.None? <==> t !in titles
    ensures r.Some? ==> r.value < |titles| && titles[r.value] == t
    ensures r.Some? ==> t !in titles[..r.value]
    decreases |titles|
  {
    if |titles| == 0 then None
    else if titles[0] == t then Some(0)
    else
      var rest := FirstEqual(titles[1..], t);
      assert titles == [titles[0]] + titles[1..];
      if rest.None? then None
      else
        assert titles[..rest.value + 1] == [titles[0]] + titles[1..][..rest.value];
        Some(rest.value + 1)
  }

  /*
   * Shell commands
   */

  /** One `bash -c` run: whether it exited successfully, and its combined output. */
  datatype ShellRun = ShellRun(succeeded: bool, output: string)

  /** The `(result, err)` pair of `executeCommandAndGet`; the error carries the command's output. */
  datatype CommandOutput = CommandOutput(result: string, err: Option<string>)

  /** `executeCommandAndGet`: on failure `result` is never assigned, so it stays empty. */
  function ExecuteAndGet(run: ShellRun): (r: CommandOutput)
    ensures r.err.None? <==> run.succeeded
    ensures r.err.Some? ==> r.result == ""
    ensures r.err.None? ==> r.result == run.output
    ensures r.err.Some? ==> r.err.value == run.output
    // Nothing of the run is lost: it can be read back from the pair.
    ensures run == if r.err.None? then ShellRun(true, r.result) else ShellRun(false, r.err.value)
  {
    if !run.succeeded then CommandOutput("", Some(run.output))
    else CommandOutput(run.output, None)
  }
}
